=== FILE: README.md ===
# Middleware capacity planner — verified model of the estimation engine

The planner estimates what a master-data replication landscape asks of its
integration middleware. Its engine, `calculateSimulation`, takes:

- data objects (volume, packet size, record size);
- targets (API rate limit, optional packet override, optional middleware
  ingress cap, the cluster they run on);
- mappings that switch (data object, target) pairs on;
- the middleware clusters;
- one global configuration (middleware acknowledgement time, source
  concurrency, and the queued or blocking integration pattern).

For every routed pair it reports the following figures:

- the split of source packets into target calls;
- the inbound rate, with throttling by the ingress cap;
- the outbound rate;
- the completion time;
- the peak queue backlog and its storage.

It then folds the routes into a per-cluster usage map, checks each cluster
against its capacity, and sums the run into scalar aggregates.

The Dafny project models that engine as pure functions over exact `real`
numbers:

| module | file | what it holds |
|---|---|---|
| `Types` | types.dfy | the input and output records, with `Option` for optional fields |
| `Numeric` | numeric.dfy | `Ceil` (Math.ceil), `Min`, `Max`, and `CeilDiv`, the rounded-up quotient, with its bounds |
| `RateModel` | rate_model.dfy | packet splitting, the ingress cap, queued inbound/outbound rates, the blocking round trip and its two bounds |
| `QueueModel` | queue_model.dfy | the floored drain rate, completion time, peak backlog, KB→MB |
| `RouteModel` | route_model.dfy | one route record in either pattern, and what every route record satisfies |
| `ClusterModel` | cluster_model.dfy | per-route contributions, the usage fold, an order-free reference sum, the health entries |
| `Selection` | selection.dfy | which pairs are routed (first matching mapping decides) and in what order |
| `Aggregates` | aggregates.dfy | sums and maxima over routes and data objects |
| `Simulation` | simulation.dfy | `CalculateSimulation` itself and the equalities that tie it to its parts |
| `SimulationProperties` | properties.dfy | whole-run properties: load and storage bounds, empty runs, independence from schedule data and from clusters |
| `Scenarios` | scenarios.dfy | the planner's default topology worked out to exact figures |

The whole run assumes `Simulation.ValidInputs`:

- a positive middleware response time;
- positive source packet sizes;
- target packet overrides that are absent, zero or positive.

"## Left out" says what the original does outside these bounds.

## Model

| member | source | states |
|---|---|---|
| Numeric.CeilDiv | services/calculator.ts:35 | the rounded-up quotient n covers a (a <= n·b), is tight ((n−1)·b < a), is 0 for a = 0, and is 1 exactly when 0 < a <= b |
| RouteModel.PacketCount | services/calculator.ts:35 | the packet count is the fewest packets of packetSize records that hold the whole volume, and is non-negative for a non-negative volume |
| RateModel.EffTargetPacketSize | services/calculator.ts:62 | the records per target call lie in (0, packetSize]; they equal packetSize iff the override is absent, zero or at least packetSize; when smaller they are the override |
| RateModel.HasTargetPacketSize | services/calculator.ts:62 | the `targetPacketSize ||` truthiness: an override counts only when present and nonzero; `EffTargetPacketSize` and `SplitOneUnlessSmallerOverride` state what it decides |
| RateModel.SplitFactor | services/calculator.ts:64 | at least one target call per source request; the fewest calls of effTarget records that carry one source packet; exactly 1 iff nothing is cut |
| RateModel.SplitOneUnlessSmallerOverride | services/calculator.ts:62-64 | a route splits into one call iff its target's override is absent, zero or at least the source packet, in both directions |
| RateModel.SplitMonotone | services/calculator.ts:62-64 | a smaller target packet never gives fewer calls per source request |
| RateModel.SplitMonotoneInTarget | services/calculator.ts:62-64 | of two overriding targets, the one accepting fewer records splits at least as much |
| RateModel.ApplyIngressCap | services/calculator.ts:74-80 | the cap applies only when the toggle is on and the ingress RPM is nonzero; the limit is RPM/60, otherwise 0; throttled iff theoretical > limit; effective is the limit when throttled and the theoretical rate otherwise (same code at lines 146-152) |
| RateModel.IngressCapActive | services/calculator.ts:74 | whether a target's cap is on: the toggle is set and the ingress RPM is nonzero (same test at line 146); its meaning is stated by `ApplyIngressCap` |
| RateModel.AsyncTheoreticalRPS | services/calculator.ts:70 | one acknowledged request per channel per response time: rate × responseMs = 1000 × concurrency; non-negative for non-negative concurrency |
| RateModel.AsyncOutboundRecordsPerSec | services/calculator.ts:86-87 | drain in records per minute equals the target's RPM times the records per target call |
| RateModel.RecordsPerSec | services/calculator.ts:82 | records per second carried by a request rate of whole source packets (same product at line 154); `RouteModel.RouteFor` (through `RouteShape`) ties every route's inbound rate to it |
| RateModel.TargetLatencySec | services/calculator.ts:121 | one target call takes 60/RPM seconds for a positive limit and 0.1 s otherwise, always positive |
| RateModel.SyncRates | services/calculator.ts:121-133 | the round trip is the overhead plus every split sub-call in sequence; thread bound × RTT = concurrency; target bound × split × 60 = RPM |
| RateModel.SyncTheoreticalRPS | services/calculator.ts:136 | the blocking rate is one of the two bounds and exceeds neither |
| RateModel.SyncBottleneck | services/calculator.ts:136-138 | a thread-bound route runs at the thread bound; any other runs at the target bound |
| RateModel.IsThreadBound | services/calculator.ts:138 | the thread bound is strictly below the target bound; `SyncBottleneck` and `SyncRoute` state what it decides |
| RateModel.SyncRespectsBothLimits | services/calculator.ts:127-133 | any rate up to the blocking rate causes at most RPM target calls per minute and keeps at most the concurrency in flight |
| QueueModel.SafeRate | services/calculator.ts:89 | the divisor rate is positive: the rate itself when positive, else 0.001 |
| QueueModel.CompletionSeconds | services/calculator.ts:89-90 | completion time × the floored rate equals the volume; non-negative for a non-negative volume |
| QueueModel.QueueDepth | services/calculator.ts:93-100 | the backlog never exceeds the volume, and is non-negative for a non-negative volume and packet size; with no growth it is min(packet, volume); with growth and a non-negative volume it is the volume less what drained during ingest, and strictly below a positive volume |
| QueueModel.GrowthBelowVolume | services/calculator.ts:93-96 | when ingest outpaces the floored drain and the volume is non-negative, the grown backlog plus what drained while ingesting is the volume, so the grown backlog lies in [0, volume] |
| QueueModel.ToMB | services/calculator.ts:101 | megabytes × 1024 equals count × KB each; non-negative for non-negative inputs; zero when either factor is zero |
| QueueModel.AsyncQueue | services/calculator.ts:89-101 | queued figures: completion at the floored drain rate; for a non-negative volume and packet size the backlog stays within [0, volume]; storage is that backlog in MB, non-negative when the record size is non-negative too |
| QueueModel.SyncQueue | services/calculator.ts:157-161 | blocking figures: completion at the floored inbound rate, no backlog, no storage |
| RouteModel.DepthPackets | services/calculator.ts:175 | the fewest whole packets that cover the backlog (n packets hold it, n−1 do not); for a backlog within the volume, between 0 and the route's packet count |
| RouteModel.AsyncRoute | services/calculator.ts:66-104 | the queued route record: inbound from the acknowledgement rate through the cap; outbound from the target limit; not thread-bound; the reported backlog packets and storage are those of the queue between its inbound and outbound rates (lines 175, 199-200), with, for a non-negative volume, backlog packets between 0 and the total packets and storage non-negative when the record size is too; plus everything every route satisfies (RouteShape) |
| RouteModel.SyncRoute | services/calculator.ts:115-161 | the blocking route record: theoretical is the tighter bound; thread-bound iff the thread bound is strictly lower; outbound equals inbound; no backlog; plus RouteShape |
| RouteModel.RouteFor | services/calculator.ts:178-202 | every route names its data object, target and cluster; carries its packets, payload, split and threads; reports throttling as the cap decided; pushes records at its effective rate; never flags storage overflow |
| RouteModel.RoutePackets | services/calculator.ts:184 | a route reports the packet count of its whole data object |
| RouteModel.PacketPayloadKB | services/calculator.ts:30 | one source packet's payload in KB, packet size times KB per record; `Aggregates.MaxPacketPayloadKB` states its role in the network figure |
| RouteModel.EffectiveRPS | services/calculator.ts:72-77 | the rate a route pushes: the cap's limit when throttled, else the theoretical rate (likewise lines 137-150); `RouteFor` ties it to the reported inbound rate and `SimulationProperties.AsyncRouteRate` bounds it |
| Selection.FirstMatch | services/calculator.ts:39 | the position of the first mapping that names the pair; no earlier mapping names it |
| Selection.IsMapped | services/calculator.ts:39-41 | a pair is routed iff its first matching mapping exists and is active; `ActivePairs` and `FirstMatchWins` state its consequences |
| Selection.FirstMatchWins | services/calculator.ts:39 | mappings appended after a matching one change neither the first match nor whether the pair is routed |
| Selection.UnmappedPairSkipped | services/calculator.ts:39-41 | a pair that no mapping names is not routed |
| Selection.ActiveRow | services/calculator.ts:38-41 | for one data object, the routed targets from a position on, each exactly once and in target order |
| Selection.ActivePairs | services/calculator.ts:29-41 | a pair is listed iff its first mapping is active; the list is in data-object-then-target order, so no pair repeats |
| Selection.NoActiveMappingNoPairs | services/calculator.ts:39-41 | with no active mapping, no pair is routed |
| ClusterModel.Contribution | services/calculator.ts:105-113 | each route adds a full channel pool of threads; a queue and its storage when queued, and none in blocking mode (lines 163-171) |
| ClusterModel.InitialUsage | services/calculator.ts:23-26 | a zeroed usage record for exactly the configured cluster ids |
| ClusterModel.Accumulate | services/calculator.ts:105-113 | one route's update keeps the map's cluster ids and leaves every other cluster's record unchanged (same update at lines 163-171); `FoldIsSum` over a one-route list states what the route's own cluster gains, and `DanglingRouteIgnored` covers an unconfigured cluster |
| ClusterModel.Fold | services/calculator.ts:105-113 | the per-route updates applied in visiting order keep the configured cluster ids; `FoldIsSum` states the totals it reaches |
| ClusterModel.FoldIsSum | services/calculator.ts:105-113 | folding routes into the map adds to each configured cluster the order-free reference sum of the routes that name it |
| ClusterModel.UsageOfPermutation | services/calculator.ts:105-113 | cluster usage is the same for any order of the routes |
| ClusterModel.UsageOfOtherCluster | services/calculator.ts:106-108 | routes naming other clusters contribute nothing to a cluster |
| ClusterModel.DanglingRouteIgnored | services/calculator.ts:106-108 | a route whose cluster is not configured leaves the usage map unchanged |
| ClusterModel.HealthOf | services/calculator.ts:218-230 | the health entry copies the capacities and usage; it reports the thread sum rounded up; its three flags are strict > on the raw sums (the thread flag too) |
| ClusterModel.ThreadBreachMatchesRoundedCount | services/calculator.ts:223-228 | for a whole-number thread capacity, the raw-sum breach agrees with comparing the reported rounded count |
| ClusterModel.ThreadBreachFractionalCapacity | services/calculator.ts:223-228 | for a fractional capacity the two disagree: 4.2 threads used against 4.5 is no breach, though 5 are reported |
| ClusterModel.HealthReport | services/calculator.ts:215-216 | one entry per configured cluster, in input order; a cluster absent from the map reports no usage |
| ClusterModel.HealthReportOrderIndependent | services/calculator.ts:215-231 | the health report is the same for any order of the routes |
| Simulation.ClusterUsageIsSum | services/calculator.ts:17-26 | every configured cluster's folded usage is the reference sum over the routes that name it |
| Simulation.ClusterUsage | services/calculator.ts:17-26 | the usage map after every route's update holds exactly the configured cluster ids; `ClusterUsageIsSum` states each cluster's totals |
| Simulation.RoutesOf | services/calculator.ts:178 | one route record per routed pair, in the pairs' order, each the route of that data object and target |
| Aggregates.MaxPacketPayloadKB | services/calculator.ts:30-33 | the running maximum over all data objects, routed or not, is ≥ 0, at least every packet payload, and either 0 or one of them |
| Aggregates.MaxCompletionSeconds | services/calculator.ts:212 | overall completion is at least every route's time, is ≥ 0, and is either 0 or one route's time |
| Aggregates.SumStorageBounds | services/calculator.ts:211 | total storage is non-negative and covers each route's storage when none is negative |
| Aggregates.SumStorageMB | services/calculator.ts:211 | the storage total summed over the routes; bounded by `SumStorageBounds` |
| Aggregates.SumEffectiveRPS | services/calculator.ts:174 | the running load sum over the routes; bounded by `SumEffectiveRPSAtMost` and fixed by `SumEffectiveRPSUniform` |
| Aggregates.SumEffectiveRPSAtMost | services/calculator.ts:174 | if each route pushes at most cap, the summed load is at most cap per route |
| Aggregates.SumEffectiveRPSUniform | services/calculator.ts:174 | if each route pushes exactly rate, the summed load is rate per route |
| Aggregates.TimesIsProduct | services/calculator.ts:174 | the per-route sum used in the load bounds is the product rate × routes |
| Simulation.ApiRequestsArePacketsOfRoutes | services/calculator.ts:206 | the per-data-object count (packets × routed targets) equals the packets summed over the reported routes, so split sub-calls are not counted |
| Simulation.TotalApiRequestsFrom | services/calculator.ts:206 | the request total summed over data objects from a position on (counts from lines 35-36 and 42); `ApiRequestsArePacketsOfRoutes` states what it counts |
| Simulation.RowRequests | services/calculator.ts:206 | one data object's packets (line 35) times its routed targets (line 42); `RowRequestsArePairPackets` equates it with the packets of its routes |
| Simulation.CalculateSimulation | services/calculator.ts:3-242 | the routes are those of the routed pairs, one each, in visiting order (through `RoutesOf`'s contract); one health entry per cluster from the routes naming it; requests, load, network MB/s, storage and completion as the sums and maxima above |
| SimulationProperties.SyncRouteWithinLimits | services/calculator.ts:121-152 | a blocking route, throttled or not, stays within its target's rate limit and within the concurrency in flight |
| SimulationProperties.AsyncRouteRate | services/calculator.ts:70-80 | a queued route pushes at most the acknowledgement rate, and exactly that without an active cap |
| SimulationProperties.AsyncPeakLoadBound | services/calculator.ts:174 | in queued mode the peak load is at most the acknowledgement rate per route, and equal to it when no target's cap is active |
| SimulationProperties.AsyncRouteSteadyBacklog | services/calculator.ts:97-101 | for a positive volume, a queued route whose floored drain keeps up with its inflow reports one packet of backlog and stores min(packet, volume) records' worth |
| SimulationProperties.RouteStorage | services/calculator.ts:101 | a route's storage is non-negative for non-negative volume and record size, and zero in blocking mode (line 161) |
| SimulationProperties.StorageTotalBounds | services/calculator.ts:211 | for non-negative volumes and record sizes, a run's storage total is non-negative, covers every route's queue, and is zero in blocking mode |
| SimulationProperties.NoActiveMappingNoRoutes | services/calculator.ts:206-212 | a run without an active mapping reports no routes and zero requests, load, throughput, storage and completion |
| SimulationProperties.NoActiveMappingIdleClusters | services/calculator.ts:215-216 | a run without an active mapping still reports every configured cluster, each unused |
| SimulationProperties.RouteIgnoresSchedule | types.ts:23-24 | a route record is the same whatever its target's replication type and schedule interval |
| SimulationProperties.SimulationIgnoresSchedule | types.ts:23-24 | changing any target's replication type or schedule interval leaves the whole result unchanged |
| SimulationProperties.RoutesIgnoreClusters | services/calculator.ts:43 | the clusters affect only the health report: routes and aggregates are identical for any cluster list |
| Scenarios.DefaultQueuedRoute | App.tsx:12-42 | the default Customer Master → S/4HANA queued route: split 1, 5000 packets, 20 RPS, 5000 records/s out, 100 s, one packet of backlog, 150/1024 MB |
| Scenarios.DefaultBlockingBounds | App.tsx:12-42 | the default blocking route: RTT 0.22 s, thread bound 4/0.22, target bound 50, thread-bound |
| Scenarios.DefaultBlockingRoute | App.tsx:12-42 | the default blocking route runs at 400/0.22 records/s both ways, finishes in 275 s, and queues nothing |
| Scenarios.CappedQueuedRoute | App.tsx:25 | the same target with its 30 RPM ingress cap on: throttled to 0.5 RPS, 50 records/s in, still one packet of backlog |
| Scenarios.SplitIntoFour | services/calculator.ts:62-64 | a 30-record override splits a 100-record packet into 4 calls |

## Left out

- `formatDuration` and `formatNumber` (services/calculator.ts:244-252) are left out. They render strings with `toFixed` and `Intl.NumberFormat`, and are not part of the estimate.
- IEEE-754 behaviour is left out: NaN and Infinity from a zero divisor, and floating-point rounding. Every figure is an exact `real`.
- Inputs outside `Simulation.ValidInputs` are left out. The original guards only some of its divisors:
  - the two record rates fall back to 0.001 records per second when not positive (calculator.ts:89, 157);
  - in the blocking pattern, a target without a positive rate limit is taken to answer each call in 0.1 s (calculator.ts:121); in the queued pattern such a target's outflow is not positive and falls to the 0.001 floor (calculator.ts:86-89);
  - the response time is a divisor only in the queued pattern (calculator.ts:70). In the blocking pattern the round trip is at least one target call, so it stays positive even at 0 ms (calculator.ts:122-128);
  - a zero packet size is divided by unguarded (calculator.ts:35, 64), giving NaN or Infinity;
  - a negative packet size without an override gives a split of 1, since the effective target packet is then the packet itself.
  The model requires a positive response time in both patterns and a positive packet size, so it does not describe these last three cases.
- A negative target packet override is excluded by `RateModel.TargetPacketSizeOk`. With one, the original computes a split factor below 1: zero when the override is at most minus the packet size, negative otherwise.
- Time to ingest (calculator.ts:93) is computed only inside the growth branch. The original also computes it when it is unused, and there it may divide by a zero inbound rate. That value is never read, so dropping it changes no output.
- Duplicate cluster ids are not excluded. The map model lets a later id overwrite an earlier one, as `Map.set` does, so such clusters share one usage record, exactly as in the original.
- Negative volumes are not excluded, but the sign facts are stated only for a non-negative volume. With a negative volume the original's backlog is capped at that negative volume, in both branches. Its backlog packets then come out zero or negative, and its storage negative for a positive record size. The queue contracts make no sign promise there.
- Effective RPS is not a field of the route record. `RouteModel.EffectiveRPS` recovers it from the throttle flag, the limit and the theoretical rate. `RouteFor`'s contract proves that this is the rate the cap decided.
- The UI is left out: configuration forms, dashboards, the diagram, the formula reference, PDF export, and the display-side recomputations. Only App.tsx's default topology is used, as the inputs of `Scenarios`.
- The thread-breach flag compares the raw thread sum with the capacity (calculator.ts:228); only the reported count is rounded up (223). `ClusterModel.ThreadBreachFractionalCapacity` shows a case where the two comparisons differ.
- A run with no routes still reports one health entry per configured cluster, each unused (calculator.ts:215-216).
- AsyncPeakLoadBound (and the two `SumEffectiveRPS…` lemmas) states "rate per route" with `Aggregates.Times`, which is repeated addition. `Aggregates.TimesIsProduct` proves it equal to the product.

=== FILE: aggregates.dfy ===
/** Scalar aggregates over the data objects and the reported routes. */
module Aggregates {
  import opened Types
  import opened RouteModel
  import opened Numeric

  /** Largest single-packet payload over ALL data objects, routed or not,
      starting from 0 as the original's running maximum does. */
  function MaxPacketPayloadKB(mdos: seq<MasterDataObject>): (r: real)
    ensures r >= 0.0
    ensures forall i :: 0 <= i < |mdos| ==> PacketPayloadKB(mdos[i]) <= r
    ensures r == 0.0 || exists i :: 0 <= i < |mdos| && r == PacketPayloadKB(mdos[i])
    decreases |mdos|
  {
    if |mdos| == 0 then 0.0
    else
      var acc := MaxPacketPayloadKB(mdos[..|mdos| - 1]);
      var current := PacketPayloadKB(mdos[|mdos| - 1]);
      assert forall i :: 0 <= i < |mdos| - 1 ==> mdos[..|mdos| - 1][i] == mdos[i];
      if current > acc then current else acc
  }

  /** Aggregate peak API load: the effective request rates of all routes. */
  function SumEffectiveRPS(routes: seq<QueueResult>): real
    decreases |routes|
  {
    if |routes| == 0 then 0.0 else EffectiveRPS(routes[0]) + SumEffectiveRPS(routes[1..])
  }

  /** Raw storage demand: the peak queue storage of all routes, uncapped. */
  function SumStorageMB(routes: seq<QueueResult>): real
    decreases |routes|
  {
    if |routes| == 0 then 0.0 else routes[0].maxQueueStorageMB + SumStorageMB(routes[1..])
  }

  /** Source packets over all routes. */
  function SumPackets(routes: seq<QueueResult>): int
    decreases |routes|
  {
    if |routes| == 0 then 0 else routes[0].totalPackets + SumPackets(routes[1..])
  }

  /** Overall completion: the slowest route, or 0 with no routes. */
  function MaxCompletionSeconds(routes: seq<QueueResult>): (r: real)
    ensures r >= 0.0
    ensures forall k :: 0 <= k < |routes| ==> routes[k].completionTimeSeconds <= r
    ensures r == 0.0 || exists k :: 0 <= k < |routes| && r == routes[k].completionTimeSeconds
    decreases |routes|
  {
    if |routes| == 0 then 0.0
    else
      var acc := MaxCompletionSeconds(routes[..|routes| - 1]);
      var last := routes[|routes| - 1].completionTimeSeconds;
      assert forall k :: 0 <= k < |routes| - 1 ==> routes[..|routes| - 1][k] == routes[k];
      Max(acc, last)
  }

  /** Total storage is never negative when no route's storage is, and it
      covers each route's own storage. */
  lemma {:induction false} SumStorageBounds(routes: seq<QueueResult>)
    requires forall k :: 0 <= k < |routes| ==> routes[k].maxQueueStorageMB >= 0.0
    ensures SumStorageMB(routes) >= 0.0
    ensures forall k :: 0 <= k < |routes| ==> routes[k].maxQueueStorageMB <= SumStorageMB(routes)
    decreases |routes|
  {
    if |routes| > 0 {
      SumStorageBounds(routes[1..]);
      forall k | 1 <= k < |routes|
        ensures routes[k].maxQueueStorageMB <= SumStorageMB(routes)
      {
        assert routes[1..][k - 1] == routes[k];
      }
    }
  }

  /** Routes that store nothing need no storage in total. */
  lemma {:induction false} SumStorageZero(routes: seq<QueueResult>)
    requires forall k :: 0 <= k < |routes| ==> routes[k].maxQueueStorageMB == 0.0
    ensures SumStorageMB(routes) == 0.0
    decreases |routes|
  {
    if |routes| > 0 {
      SumStorageZero(routes[1..]);
    }
  }

  /** `n` copies of `x` added up: the product `x * n`, by repeated addition. */
  function Times(x: real, n: nat): (r: real)
    decreases n
  {
    if n == 0 then 0.0 else x + Times(x, n - 1)
  }

  lemma {:induction false} TimesIsProduct(x: real, n: nat)
    ensures Times(x, n) == x * n as real
    decreases n
  {
    if n > 0 {
      TimesIsProduct(x, n - 1);
      assert x * n as real == x * (n - 1) as real + x;
    }
  }

  /** When every route pushes at most `cap` requests per second, the peak
      load is at most `cap` per route. */
  lemma {:induction false} SumEffectiveRPSAtMost(routes: seq<QueueResult>, cap: real)
    requires forall k :: 0 <= k < |routes| ==> EffectiveRPS(routes[k]) <= cap
    ensures SumEffectiveRPS(routes) <= Times(cap, |routes|)
    decreases |routes|
  {
    if |routes| > 0 {
      var tail := routes[1..];
      assert forall k :: 0 <= k < |tail| ==> tail[k] == routes[k + 1];
      SumEffectiveRPSAtMost(tail, cap);
    }
  }

  /** When every route pushes exactly `rate` requests per second, the peak
      load is `rate` per route. */
  lemma {:induction false} SumEffectiveRPSUniform(routes: seq<QueueResult>, rate: real)
    requires forall k :: 0 <= k < |routes| ==> EffectiveRPS(routes[k]) == rate
    ensures SumEffectiveRPS(routes) == Times(rate, |routes|)
    decreases |routes|
  {
    if |routes| > 0 {
      var tail := routes[1..];
      assert forall k :: 0 <= k < |tail| ==> tail[k] == routes[k + 1];
      SumEffectiveRPSUniform(tail, rate);
    }
  }
}

=== FILE: cluster_model.dfy ===
/** Cluster usage: every route's threads, queue and storage folded into a map
    from cluster id to a usage record, and the health report that compares
    the totals with each cluster's capacity. */
module ClusterModel {
  import opened Types
  import opened Numeric

  datatype Usage = Usage(activeQueues: nat, usedThreads: real, totalStorageMB: real)

  const NoUsage: Usage := Usage(0, 0.0, 0.0)

  function Add(a: Usage, b: Usage): Usage
  {
    Usage(a.activeQueues + b.activeQueues, a.usedThreads + b.usedThreads, a.totalStorageMB + b.totalStorageMB)
  }

  /** What one route adds to its cluster: a full channel pool of threads in
      both patterns; a queue and its storage only when queued. */
  function Contribution(config: GlobalConfig, q: QueueResult): (u: Usage)
    ensures u.usedThreads == config.mdgConcurrency
    ensures config.integrationPattern == Async ==> u.activeQueues == 1 && u.totalStorageMB == q.maxQueueStorageMB
    ensures config.integrationPattern == Sync ==> u.activeQueues == 0 && u.totalStorageMB == 0.0
  {
    match config.integrationPattern
    case Async => Usage(1, config.mdgConcurrency, q.maxQueueStorageMB)
    case Sync => Usage(0, config.mdgConcurrency, 0.0)
  }

  /** One zeroed usage record per configured cluster id. */
  function InitialUsage(clusters: seq<MiddlewareCluster>): (m: map<string, Usage>)
    ensures forall i :: 0 <= i < |clusters| ==> clusters[i].id in m
    ensures forall id :: id in m ==> m[id] == NoUsage
    ensures forall id :: id in m ==> exists i :: 0 <= i < |clusters| && clusters[i].id == id
  {
    if |clusters| == 0 then map[]
    else InitialUsage(clusters[..|clusters| - 1])[clusters[|clusters| - 1].id := NoUsage]
  }

  /** One route's update: its cluster's record grows by its contribution; a
      route whose cluster is not configured changes nothing. */
  function Accumulate(m: map<string, Usage>, config: GlobalConfig, q: QueueResult): (r: map<string, Usage>)
    ensures r.Keys == m.Keys
    ensures forall id :: id in m && id != q.middlewareClusterId ==> r[id] == m[id]
  {
    var id := q.middlewareClusterId;
    if id in m then m[id := Add(m[id], Contribution(config, q))] else m
  }

  /** The usage map after folding every route in order. */
  function Fold(m: map<string, Usage>, config: GlobalConfig, routes: seq<QueueResult>): (r: map<string, Usage>)
    ensures r.Keys == m.Keys
    decreases |routes|
  {
    if |routes| == 0 then m
    else Fold(Accumulate(m, config, routes[0]), config, routes[1..])
  }

  /** Reference definition: the sum of contributions of the routes whose
      cluster is `id`, with no map and no order. */
  function UsageOf(config: GlobalConfig, routes: seq<QueueResult>, id: string): Usage
    decreases |routes|
  {
    if |routes| == 0 then NoUsage
    else
      var rest := UsageOf(config, routes[1..], id);
      if routes[0].middlewareClusterId == id then Add(Contribution(config, routes[0]), rest) else rest
  }

  /** The fold adds exactly the reference sum to every configured cluster. */
  lemma {:induction false} FoldIsSum(m: map<string, Usage>, config: GlobalConfig, routes: seq<QueueResult>, id: string)
    requires id in m
    ensures Fold(m, config, routes)[id] == Add(m[id], UsageOf(config, routes, id))
    decreases |routes|
  {
    if |routes| == 0 {
    } else {
      var m' := Accumulate(m, config, routes[0]);
      FoldIsSum(m', config, routes[1..], id);
    }
  }

  /** Usage over two batches of routes is the sum of the usages of each. */
  lemma {:induction false} UsageOfAppend(config: GlobalConfig, a: seq<QueueResult>, b: seq<QueueResult>, id: string)
    ensures UsageOf(config, a + b, id) == Add(UsageOf(config, a, id), UsageOf(config, b, id))
    decreases |a|
  {
    if |a| == 0 {
      assert a + b == b;
    } else {
      var ab := a + b;
      assert ab[0] == a[0];
      assert ab[1..] == a[1..] + b;
      UsageOfAppend(config, a[1..], b, id);
      var rest := UsageOf(config, a[1..], id);
      assert UsageOf(config, ab, id)
          == if a[0].middlewareClusterId == id then Add(Contribution(config, a[0]), UsageOf(config, ab[1..], id))
             else UsageOf(config, ab[1..], id);
      assert UsageOf(config, a, id)
          == if a[0].middlewareClusterId == id then Add(Contribution(config, a[0]), rest) else rest;
    }
  }

  /** Taking one route out of a batch takes out exactly its contribution. */
  lemma {:induction false} UsageOfRemoveAt(config: GlobalConfig, b: seq<QueueResult>, k: nat, id: string)
    requires k < |b|
    ensures UsageOf(config, b, id) == Add(UsageOf(config, [b[k]], id), UsageOf(config, b[..k] + b[k + 1..], id))
  {
    var x := b[k];
    var ux, u1, u2 := UsageOf(config, [x], id), UsageOf(config, b[..k], id), UsageOf(config, b[k + 1..], id);
    var tail := [x] + b[k + 1..];
    assert b[..k] + tail == b;
    UsageOfAppend(config, b[..k], tail, id);
    UsageOfAppend(config, [x], b[k + 1..], id);
    UsageOfAppend(config, b[..k], b[k + 1..], id);
    AddSwap(u1, ux, u2);
  }

  lemma AddSwap(a: Usage, b: Usage, c: Usage)
    ensures Add(a, Add(b, c)) == Add(b, Add(a, c))
  {
  }

  lemma MultisetRemoveAt<T>(a: seq<T>, b: seq<T>, k: nat)
    requires multiset(a) == multiset(b) && |a| > 0
    requires k < |b| && b[k] == a[0]
    ensures multiset(a[1..]) == multiset(b[..k] + b[k + 1..])
  {
    var x := a[0];
    assert multiset(b) == multiset(b[..k]) + multiset{x} + multiset(b[k + 1..]) by {
      assert b == b[..k] + ([x] + b[k + 1..]);
    }
    assert multiset(a) == multiset{x} + multiset(a[1..]) by {
      assert a == [x] + a[1..];
    }
    assert multiset(a[1..]) == multiset(a) - multiset{x};
    assert multiset(b[..k] + b[k + 1..]) == multiset(b) - multiset{x};
  }

  /** Usage does not depend on the order in which routes are folded. */
  lemma {:induction false} UsageOfPermutation(config: GlobalConfig, a: seq<QueueResult>, b: seq<QueueResult>, id: string)
    requires multiset(a) == multiset(b)
    ensures UsageOf(config, a, id) == UsageOf(config, b, id)
    decreases |a|
  {
    if |a| == 0 {
      assert |b| == |multiset(b)| == 0;
    } else {
      var x := a[0];
      assert x in multiset(b);
      var k :| 0 <= k < |b| && b[k] == x;
      MultisetRemoveAt(a, b, k);
      UsageOfPermutation(config, a[1..], b[..k] + b[k + 1..], id);
      UsageOfAppend(config, [x], a[1..], id);
      assert a == [x] + a[1..];
      UsageOfRemoveAt(config, b, k, id);
    }
  }

  /** A route contributes only to the cluster it names. */
  lemma {:induction false} UsageOfOtherCluster(config: GlobalConfig, routes: seq<QueueResult>, id: string)
    requires forall k :: 0 <= k < |routes| ==> routes[k].middlewareClusterId != id
    ensures UsageOf(config, routes, id) == NoUsage
    decreases |routes|
  {
    if |routes| > 0 {
      UsageOfOtherCluster(config, routes[1..], id);
    }
  }

  /** A route whose cluster is not configured leaves the usage map as it was. */
  lemma {:induction false} DanglingRouteIgnored(m: map<string, Usage>, config: GlobalConfig, routes: seq<QueueResult>, q: QueueResult)
    requires q.middlewareClusterId !in m
    ensures Fold(m, config, routes + [q]) == Fold(m, config, routes)
    decreases |routes|
  {
    if |routes| == 0 {
      assert routes + [q] == [q];
      assert [q][1..] == [];
    } else {
      assert (routes + [q])[0] == routes[0];
      assert (routes + [q])[1..] == routes[1..] + [q];
      DanglingRouteIgnored(Accumulate(m, config, routes[0]), config, routes[1..], q);
    }
  }

  /** The health entry of one cluster: the raw usage against capacity with
      three strict breach tests; only the reported thread count is rounded up. */
  function HealthOf(c: MiddlewareCluster, u: Usage): (h: ClusterHealth)
    ensures h.clusterId == c.id && h.clusterName == c.name
    ensures h.activeQueues == u.activeQueues && h.totalStorageUsedMB == u.totalStorageMB
    ensures h.maxQueues == c.maxQueues && h.maxThreads == c.maxThreads && h.maxStorageMB == c.maxQueueCapacityMB
    ensures u.usedThreads <= h.usedThreads as real < u.usedThreads + 1.0
    ensures h.isQueueCountBreached <==> u.activeQueues as real > c.maxQueues
    ensures h.isThreadCountBreached <==> u.usedThreads > c.maxThreads
    ensures h.hasStorageWarning <==> u.totalStorageMB > c.maxQueueCapacityMB
  {
    ClusterHealth(
      clusterId := c.id,
      clusterName := c.name,
      activeQueues := u.activeQueues,
      maxQueues := c.maxQueues,
      usedThreads := Ceil(u.usedThreads),
      maxThreads := c.maxThreads,
      totalStorageUsedMB := u.totalStorageMB,
      maxStorageMB := c.maxQueueCapacityMB,
      isQueueCountBreached := u.activeQueues as real > c.maxQueues,
      isThreadCountBreached := u.usedThreads > c.maxThreads,
      hasStorageWarning := u.totalStorageMB > c.maxQueueCapacityMB)
  }

  /** For a whole-number thread capacity, breaching with the raw sum and
      breaching with the rounded-up count coincide. */
  lemma ThreadBreachMatchesRoundedCount(c: MiddlewareCluster, u: Usage)
    requires c.maxThreads == c.maxThreads.Floor as real
    ensures HealthOf(c, u).isThreadCountBreached <==> HealthOf(c, u).usedThreads as real > c.maxThreads
  {
    var h := HealthOf(c, u);
    var n := c.maxThreads.Floor;
    if h.usedThreads as real > c.maxThreads {
      assert h.usedThreads >= n + 1;
      assert (h.usedThreads - 1) as real < u.usedThreads;
    }
  }

  /** With a fractional thread capacity the two can differ: 4.2 threads used
      against a capacity of 4.5 is no breach, though 5 are reported. */
  lemma ThreadBreachFractionalCapacity()
    ensures var c := MiddlewareCluster("c", "c", 4.5, 1.0, 1.0);
            var h := HealthOf(c, Usage(0, 4.2, 0.0));
            !h.isThreadCountBreached && h.usedThreads as real > c.maxThreads
  {
  }

  /** One health entry per configured cluster, in input order; a cluster
      missing from the map reports no usage. */
  function HealthReport(clusters: seq<MiddlewareCluster>, m: map<string, Usage>): (hs: seq<ClusterHealth>)
    ensures |hs| == |clusters|
    ensures forall i :: 0 <= i < |clusters| ==>
              hs[i] == HealthOf(clusters[i], if clusters[i].id in m then m[clusters[i].id] else NoUsage)
  {
    seq(|clusters|, i requires 0 <= i < |clusters| =>
      HealthOf(clusters[i], if clusters[i].id in m then m[clusters[i].id] else NoUsage))
  }

  /** The health report does not depend on the order of the routes. */
  lemma HealthReportOrderIndependent(clusters: seq<MiddlewareCluster>, config: GlobalConfig, a: seq<QueueResult>, b: seq<QueueResult>)
    requires multiset(a) == multiset(b)
    ensures HealthReport(clusters, Fold(InitialUsage(clusters), config, a))
            == HealthReport(clusters, Fold(InitialUsage(clusters), config, b))
  {
    var m := InitialUsage(clusters);
    forall i | 0 <= i < |clusters|
      ensures Fold(m, config, a)[clusters[i].id] == Fold(m, config, b)[clusters[i].id]
    {
      FoldIsSum(m, config, a, clusters[i].id);
      FoldIsSum(m, config, b, clusters[i].id);
      UsageOfPermutation(config, a, b, clusters[i].id);
    }
  }
}

=== FILE: numeric.dfy ===
/** The few JavaScript `Math` operations the engine uses, over exact reals. */
module Numeric {

  /** `Math.ceil`: the least integer not below `x`. */
  function Ceil(x: real): (r: int)
    ensures x <= r as real
    ensures (r - 1) as real < x
  {
    -((-x).Floor)
  }

  /** `Math.min` of two numbers. */
  function Min(a: real, b: real): (r: real)
    ensures r <= a && r <= b
    ensures r == a || r == b
  {
    if a <= b then a else b
  }

  /** `Math.max` of two numbers. */
  function Max(a: real, b: real): (r: real)
    ensures a <= r && b <= r
    ensures r == a || r == b
  {
    if a <= b then b else a
  }

  /** Ceil never decreases when its argument grows. */
  lemma CeilMonotone(x: real, y: real)
    requires x <= y
    ensures Ceil(x) <= Ceil(y)
  {
  }

  /** Multiplying by a positive factor keeps an order (strict or not). */
  lemma MulMonotone(a: real, b: real, k: real)
    requires k > 0.0
    ensures a <= b ==> a * k <= b * k
    ensures a < b ==> a * k < b * k
  {
  }

  /** `Math.ceil(a / b)` for a positive divisor: the fewest whole `b`-sized
      pieces that cover `a`. */
  function CeilDiv(a: real, b: real): (n: int)
    requires b > 0.0
    ensures a <= n as real * b
    ensures (n - 1) as real * b < a
    ensures a >= 0.0 ==> n >= 0
    ensures a > 0.0 ==> n >= 1 && (n == 1 <==> a <= b)
    ensures a == 0.0 ==> n == 0
  {
    CeilDivBounds(a, b, a / b, Ceil(a / b));
    Ceil(a / b)
  }

  lemma CeilDivBounds(a: real, b: real, q: real, n: int)
    requires b > 0.0 && q * b == a
    requires q <= n as real && (n - 1) as real < q
    ensures a <= n as real * b
    ensures (n - 1) as real * b < a
    ensures a >= 0.0 ==> n >= 0
    ensures a > 0.0 ==> n >= 1 && (n == 1 <==> a <= b)
    ensures a == 0.0 ==> n == 0
  {
    CeilCovers(a, b, q, n);
    CeilTight(a, b, q, n);
    CeilSign(a, b, q, n);
  }

  lemma CeilCovers(a: real, b: real, q: real, n: int)
    requires b > 0.0 && q * b == a && q <= n as real
    ensures a <= n as real * b
  {
    MulMonotone(q, n as real, b);
  }

  lemma CeilTight(a: real, b: real, q: real, n: int)
    requires b > 0.0 && q * b == a && (n - 1) as real < q
    ensures (n - 1) as real * b < a
  {
    MulMonotone((n - 1) as real, q, b);
  }

  lemma CeilSign(a: real, b: real, q: real, n: int)
    requires b > 0.0 && q * b == a
    requires q <= n as real && (n - 1) as real < q
    ensures a >= 0.0 ==> n >= 0
    ensures a > 0.0 ==> n >= 1 && (n == 1 <==> a <= b)
    ensures a == 0.0 ==> n == 0
  {
    QuotientSign(a, b, q);
    if a > 0.0 && a <= b {
      QuotientAtMostOne(a, b, q);
    }
    if n == 1 {
      CeilCovers(a, b, q, n);
      assert n as real * b == b;
    }
  }

  /** The quotient by a positive divisor has the dividend's sign. */
  lemma QuotientSign(a: real, b: real, q: real)
    requires b > 0.0 && q * b == a
    ensures a >= 0.0 ==> q >= 0.0
    ensures a > 0.0 ==> q > 0.0
    ensures a == 0.0 ==> q == 0.0
  {
    MulMonotone(q, 0.0, b);
    MulMonotone(0.0, q, b);
  }

  lemma QuotientAtMostOne(a: real, b: real, q: real)
    requires b > 0.0 && q * b == a && a <= b
    ensures q <= 1.0
  {
    MulMonotone(1.0, q, b);
  }

  /** Covering more takes at least as many pieces. */
  lemma CeilDivMonotone(a1: real, a2: real, b: real)
    requires a1 <= a2 && b > 0.0
    ensures CeilDiv(a1, b) <= CeilDiv(a2, b)
  {
    MulMonotone(a1, a2, 1.0 / b);
    CeilMonotone(a1 / b, a2 / b);
  }
}

=== FILE: properties.dfy ===
/** Properties of a whole simulation run: bounds on the aggregates, what a
    run without routes reports, which inputs the figures do not depend on. */
module SimulationProperties {
  import opened Types
  import opened Numeric
  import opened RateModel
  import opened QueueModel
  import opened RouteModel
  import opened ClusterModel
  import opened Selection
  import opened Aggregates
  import opened Simulation

  /** A synchronous route never causes more target calls per minute than
      the target's rate limit, nor keeps more requests in flight than the
      concurrency, whether or not the ingress cap throttles it. */
  lemma SyncRouteWithinLimits(mdo: MasterDataObject, target: TargetSystem, config: GlobalConfig)
    requires RouteInputsOk(mdo, target, config)
    requires config.integrationPattern == Sync
    ensures var r := RouteFor(mdo, target, config);
            TargetCallsPerMinute(EffectiveRPS(r), r.splitFactor) <= target.apiRateLimitRPM
    ensures var r := RouteFor(mdo, target, config);
            InFlight(EffectiveRPS(r), SyncRates(config, target.apiRateLimitRPM, r.splitFactor).rttSeconds)
            <= config.mdgConcurrency
  {
    var r := RouteFor(mdo, target, config);
    SyncRespectsBothLimits(config, target.apiRateLimitRPM, r.splitFactor, EffectiveRPS(r));
  }

  /** One asynchronous route pushes at most the acknowledgement-bound rate,
      and exactly that rate when its target has no active ingress cap. */
  lemma AsyncRouteRate(mdo: MasterDataObject, target: TargetSystem, config: GlobalConfig)
    requires RouteInputsOk(mdo, target, config)
    requires config.integrationPattern == Async
    ensures EffectiveRPS(RouteFor(mdo, target, config)) <= AsyncTheoreticalRPS(config)
    ensures !IngressCapActive(target) ==> EffectiveRPS(RouteFor(mdo, target, config)) == AsyncTheoreticalRPS(config)
  {
    var r := AsyncRoute(mdo, target, config);
    assert RouteShape(mdo, target, config, r);
  }

  /** In the queued pattern the aggregate peak load is at most the
      acknowledgement-bound rate per route, and exactly that when no
      target's ingress cap is active. */
  lemma AsyncPeakLoadBound(
    mdos: seq<MasterDataObject>, targets: seq<TargetSystem>, mappings: seq<Mapping>,
    config: GlobalConfig, clusters: seq<MiddlewareCluster>)
    requires ValidInputs(mdos, targets, config)
    requires config.integrationPattern == Async
    ensures var r := CalculateSimulation(mdos, targets, mappings, config, clusters);
            r.maxApiLoadRPS <= Times(AsyncTheoreticalRPS(config), |r.queues|)
    ensures (forall j :: 0 <= j < |targets| ==> !IngressCapActive(targets[j])) ==>
            var r := CalculateSimulation(mdos, targets, mappings, config, clusters);
            r.maxApiLoadRPS == Times(AsyncTheoreticalRPS(config), |r.queues|)
  {
    var ps := ActivePairs(mdos, targets, mappings);
    AsyncRoutesLoad(mdos, targets, config, ps);
    if forall j :: 0 <= j < |targets| ==> !IngressCapActive(targets[j]) {
      AsyncRoutesLoadUncapped(mdos, targets, config, ps);
    }
  }

  /** The peak-load bound over the routes of any list of routed pairs. */
  lemma AsyncRoutesLoad(mdos: seq<MasterDataObject>, targets: seq<TargetSystem>, config: GlobalConfig, ps: seq<(nat, nat)>)
    requires ValidInputs(mdos, targets, config)
    requires config.integrationPattern == Async
    requires forall p :: p in ps ==> p.0 < |mdos| && p.1 < |targets|
    ensures var rs := RoutesOf(mdos, targets, config, ps);
            SumEffectiveRPS(rs) <= Times(AsyncTheoreticalRPS(config), |rs|)
  {
    AsyncRoutesRate(mdos, targets, config, ps);
    SumEffectiveRPSAtMost(RoutesOf(mdos, targets, config, ps), AsyncTheoreticalRPS(config));
  }

  /** ... with equality when no target's ingress cap is active. */
  lemma AsyncRoutesLoadUncapped(mdos: seq<MasterDataObject>, targets: seq<TargetSystem>, config: GlobalConfig, ps: seq<(nat, nat)>)
    requires ValidInputs(mdos, targets, config)
    requires config.integrationPattern == Async
    requires forall p :: p in ps ==> p.0 < |mdos| && p.1 < |targets|
    requires forall j :: 0 <= j < |targets| ==> !IngressCapActive(targets[j])
    ensures var rs := RoutesOf(mdos, targets, config, ps);
            SumEffectiveRPS(rs) == Times(AsyncTheoreticalRPS(config), |rs|)
  {
    AsyncRoutesRate(mdos, targets, config, ps);
    SumEffectiveRPSUniform(RoutesOf(mdos, targets, config, ps), AsyncTheoreticalRPS(config));
  }

  /** The per-route rate bound over the routes of any list of routed pairs. */
  lemma AsyncRoutesRate(mdos: seq<MasterDataObject>, targets: seq<TargetSystem>, config: GlobalConfig, ps: seq<(nat, nat)>)
    requires ValidInputs(mdos, targets, config)
    requires config.integrationPattern == Async
    requires forall p :: p in ps ==> p.0 < |mdos| && p.1 < |targets|
    ensures var rs := RoutesOf(mdos, targets, config, ps);
            forall k :: 0 <= k < |rs| ==> EffectiveRPS(rs[k]) <= AsyncTheoreticalRPS(config)
    ensures (forall j :: 0 <= j < |targets| ==> !IngressCapActive(targets[j])) ==>
            var rs := RoutesOf(mdos, targets, config, ps);
            forall k :: 0 <= k < |rs| ==> EffectiveRPS(rs[k]) == AsyncTheoreticalRPS(config)
  {
    var rs := RoutesOf(mdos, targets, config, ps);
    forall k | 0 <= k < |rs|
      ensures EffectiveRPS(rs[k]) <= AsyncTheoreticalRPS(config)
      ensures !IngressCapActive(targets[ps[k].1]) ==> EffectiveRPS(rs[k]) == AsyncTheoreticalRPS(config)
    {
      assert ps[k] in ps;
      AsyncRouteRate(mdos[ps[k].0], targets[ps[k].1], config);
    }
  }

  /** A queued route whose target drains at least as fast as records
      arrive holds one packet in its queue (or the whole volume, when that
      is smaller), and stores exactly that. */
  lemma AsyncRouteSteadyBacklog(mdo: MasterDataObject, target: TargetSystem, config: GlobalConfig)
    requires RouteInputsOk(mdo, target, config)
    requires config.integrationPattern == Async
    requires mdo.volume > 0.0
    requires var r := RouteFor(mdo, target, config);
             r.inboundThroughputRecordsPerSec <= SafeRate(r.outboundProcessingRateRecordsPerSec)
    ensures RouteFor(mdo, target, config).maxQueueDepthPackets == 1
    ensures RouteFor(mdo, target, config).maxQueueStorageMB
            == ToMB(Min(mdo.packetSize, mdo.volume), mdo.payloadSizePerRecordKB)
  {
    var r := AsyncRoute(mdo, target, config);
    var d := QueueDepth(mdo.volume, mdo.packetSize, r.inboundThroughputRecordsPerSec,
                        SafeRate(r.outboundProcessingRateRecordsPerSec));
    assert d == Min(mdo.packetSize, mdo.volume);
    assert 0.0 < d <= mdo.packetSize;
    assert CeilDiv(d, mdo.packetSize) == 1;
  }

  /** Each route's own queue storage is never negative for a non-negative
      volume and payload, and nothing is stored synchronously. */
  lemma RouteStorage(mdo: MasterDataObject, target: TargetSystem, config: GlobalConfig)
    requires RouteInputsOk(mdo, target, config)
    ensures mdo.volume >= 0.0 && mdo.payloadSizePerRecordKB >= 0.0 ==>
              RouteFor(mdo, target, config).maxQueueStorageMB >= 0.0
    ensures config.integrationPattern == Sync ==> RouteFor(mdo, target, config).maxQueueStorageMB == 0.0
  {
  }

  /** The storage total of a run is never negative, covers every route's
      own queue, and is zero in the synchronous pattern. */
  lemma StorageTotalBounds(
    mdos: seq<MasterDataObject>, targets: seq<TargetSystem>, mappings: seq<Mapping>,
    config: GlobalConfig, clusters: seq<MiddlewareCluster>)
    requires ValidInputs(mdos, targets, config)
    requires forall i :: 0 <= i < |mdos| ==> mdos[i].volume >= 0.0 && mdos[i].payloadSizePerRecordKB >= 0.0
    ensures var r := CalculateSimulation(mdos, targets, mappings, config, clusters);
            r.totalStorageRequiredMB >= 0.0
            && forall k :: 0 <= k < |r.queues| ==> r.queues[k].maxQueueStorageMB <= r.totalStorageRequiredMB
    ensures config.integrationPattern == Sync ==>
              CalculateSimulation(mdos, targets, mappings, config, clusters).totalStorageRequiredMB == 0.0
  {
    var r := CalculateSimulation(mdos, targets, mappings, config, clusters);
    var pairs := ActivePairs(mdos, targets, mappings);
    forall k | 0 <= k < |r.queues|
      ensures r.queues[k].maxQueueStorageMB >= 0.0
      ensures config.integrationPattern == Sync ==> r.queues[k].maxQueueStorageMB == 0.0
    {
      var p := pairs[k];
      RouteStorage(mdos[p.0], targets[p.1], config);
    }
    SumStorageBounds(r.queues);
    if config.integrationPattern == Sync {
      SumStorageZero(r.queues);
    }
  }

  /** A run whose mappings are all inactive (or absent) routes nothing: no
      routes and zero aggregates ... */
  lemma NoActiveMappingNoRoutes(
    mdos: seq<MasterDataObject>, targets: seq<TargetSystem>, mappings: seq<Mapping>,
    config: GlobalConfig, clusters: seq<MiddlewareCluster>)
    requires ValidInputs(mdos, targets, config)
    requires forall l :: 0 <= l < |mappings| ==> !mappings[l].active
    ensures var r := CalculateSimulation(mdos, targets, mappings, config, clusters);
            && r.queues == []
            && r.totalApiRequests == 0
            && r.maxApiLoadRPS == 0.0
            && r.requiredNetworkThroughputMBPS == 0.0
            && r.totalStorageRequiredMB == 0.0
            && r.overallCompletionTimeSeconds == 0.0
  {
    NoActiveMappingNoPairs(mdos, targets, mappings);
  }

  /** ... and every configured cluster reported unused. */
  lemma NoActiveMappingIdleClusters(
    mdos: seq<MasterDataObject>, targets: seq<TargetSystem>, mappings: seq<Mapping>,
    config: GlobalConfig, clusters: seq<MiddlewareCluster>)
    requires ValidInputs(mdos, targets, config)
    requires forall l :: 0 <= l < |mappings| ==> !mappings[l].active
    ensures var r := CalculateSimulation(mdos, targets, mappings, config, clusters);
            |r.clusterHealth| == |clusters|
            && forall i :: 0 <= i < |clusters| ==> r.clusterHealth[i] == HealthOf(clusters[i], NoUsage)
  {
    NoActiveMappingNoPairs(mdos, targets, mappings);
  }

  /** Two targets that differ only in their replication type and schedule
      interval. */
  predicate SameButSchedule(t: TargetSystem, u: TargetSystem)
  {
    t == u.(replicationType := t.replicationType, scheduleIntervalMinutes := t.scheduleIntervalMinutes)
  }

  /** The replication type and schedule interval are carried data only: the
      route record does not depend on them. */
  lemma RouteIgnoresSchedule(mdo: MasterDataObject, t: TargetSystem, u: TargetSystem, config: GlobalConfig)
    requires RouteInputsOk(mdo, t, config)
    requires SameButSchedule(t, u)
    ensures RouteInputsOk(mdo, u, config)
    ensures RouteFor(mdo, t, config) == RouteFor(mdo, u, config)
  {
    assert EffTargetPacketSize(mdo.packetSize, t) == EffTargetPacketSize(mdo.packetSize, u);
    assert IngressCapActive(t) == IngressCapActive(u);
    assert forall x :: ApplyIngressCap(x, t) == ApplyIngressCap(x, u);
  }

  /** Changing any target's replication type or schedule interval leaves the
      whole result unchanged. */
  lemma SimulationIgnoresSchedule(
    mdos: seq<MasterDataObject>, ts: seq<TargetSystem>, us: seq<TargetSystem>, mappings: seq<Mapping>,
    config: GlobalConfig, clusters: seq<MiddlewareCluster>)
    requires ValidInputs(mdos, ts, config)
    requires |ts| == |us|
    requires forall k :: 0 <= k < |ts| ==> SameButSchedule(ts[k], us[k])
    ensures ValidInputs(mdos, us, config)
    ensures CalculateSimulation(mdos, ts, mappings, config, clusters)
            == CalculateSimulation(mdos, us, mappings, config, clusters)
  {
    assert forall k :: 0 <= k < |us| ==> TargetPacketSizeOk(us[k]) by {
      forall k | 0 <= k < |us| ensures TargetPacketSizeOk(us[k]) {
        assert SameButSchedule(ts[k], us[k]);
      }
    }
    PairsSameIds(mdos, ts, us, mappings, 0);
    var pairs := ActivePairs(mdos, ts, mappings);
    var rt := RoutesOf(mdos, ts, config, pairs);
    var ru := RoutesOf(mdos, us, config, pairs);
    forall k | 0 <= k < |pairs|
      ensures rt[k] == ru[k]
    {
      var p := pairs[k];
      assert p in pairs;
      RouteIgnoresSchedule(mdos[p.0], ts[p.1], us[p.1], config);
    }
    assert rt == ru;
    ApiRequestsArePacketsOfRoutes(mdos, ts, mappings, config);
    ApiRequestsArePacketsOfRoutes(mdos, us, mappings, config);
  }

  /** The clusters affect only the health report: every route (including
      one naming a cluster that is not configured) and every aggregate is
      the same whatever clusters are configured. */
  lemma RoutesIgnoreClusters(
    mdos: seq<MasterDataObject>, targets: seq<TargetSystem>, mappings: seq<Mapping>,
    config: GlobalConfig, cs: seq<MiddlewareCluster>, ds: seq<MiddlewareCluster>)
    requires ValidInputs(mdos, targets, config)
    ensures var r := CalculateSimulation(mdos, targets, mappings, config, cs);
            var s := CalculateSimulation(mdos, targets, mappings, config, ds);
            r.queues == s.queues && r.totalApiRequests == s.totalApiRequests
            && r.maxApiLoadRPS == s.maxApiLoadRPS
            && r.requiredNetworkThroughputMBPS == s.requiredNetworkThroughputMBPS
            && r.totalStorageRequiredMB == s.totalStorageRequiredMB
            && r.overallCompletionTimeSeconds == s.overallCompletionTimeSeconds
  {
    var r := CalculateSimulation(mdos, targets, mappings, config, cs);
    var s := CalculateSimulation(mdos, targets, mappings, config, ds);
    assert r.queues == s.queues;
  }
}

=== FILE: queue_model.dfy ===
/** Queue accumulation: from a route's inbound and outbound rates and its
    finite volume, the completion time, the peak backlog and its storage. */
module QueueModel {
  import opened Numeric

  /** Records per second substituted for a rate that is not positive, so
      that a completion time is always defined. */
  const RateFloor: real := 0.001

  /** A rate usable as a divisor: the rate itself when positive, else the floor. */
  function SafeRate(rate: real): (r: real)
    ensures r > 0.0
    ensures rate > 0.0 ==> r == rate
    ensures rate <= 0.0 ==> r == RateFloor
  {
    if rate > 0.0 then rate else RateFloor
  }

  /** Seconds to move `volume` records at `rate` records per second, the
      rate floored so that the time is always defined. */
  function CompletionSeconds(volume: real, rate: real): (t: real)
    ensures t * SafeRate(rate) == volume
    ensures volume >= 0.0 ==> t >= 0.0
  {
    var t := volume / SafeRate(rate);
    assert t * SafeRate(rate) == volume;
    t
  }

  /** Kilobytes per megabyte, as the original converts storage. */
  const KBPerMB: real := 1024.0

  datatype QueueFigures = QueueFigures(completionSeconds: real, depthRecords: real, storageMB: real)

  /** Peak backlog in records: it grows only while ingest outpaces the
      (floored) drain rate, otherwise one source packet is in flight; it
      never exceeds the volume. */
  function QueueDepth(volume: real, packetSize: real, inbound: real, safeOutflow: real): (d: real)
    requires safeOutflow > 0.0
    ensures d <= volume
    ensures volume >= 0.0 && packetSize >= 0.0 ==> d >= 0.0
    ensures inbound <= safeOutflow ==> d == Min(packetSize, volume)
    // growing backlog: what was ingested minus what drained while ingesting
    ensures inbound > safeOutflow && volume >= 0.0 ==>
              d + safeOutflow * (volume / inbound) == volume
    ensures inbound > safeOutflow && volume > 0.0 ==> d < volume
  {
    var grown :=
      if inbound > safeOutflow then
        var timeToIngest := volume / inbound;
        (inbound - safeOutflow) * timeToIngest
      else packetSize;
    GrowthBelowVolume(volume, inbound, safeOutflow);
    Min(grown, volume)
  }

  /** When ingest outpaces the drain, the backlog left at the end of ingest
      is the volume less what drained meanwhile, so the volume cap does not
      bind for a non-negative volume. */
  lemma GrowthBelowVolume(volume: real, inbound: real, safeOutflow: real)
    requires safeOutflow > 0.0
    ensures inbound > safeOutflow && volume >= 0.0 ==>
              var grown := (inbound - safeOutflow) * (volume / inbound);
              && grown + safeOutflow * (volume / inbound) == volume
              && 0.0 <= grown <= volume
              && (volume > 0.0 ==> grown < volume)
  {
    if inbound > safeOutflow && volume >= 0.0 {
      var t := volume / inbound;
      assert t * inbound == volume;
      assert t >= 0.0;
      assert safeOutflow * t >= 0.0;
      if volume > 0.0 {
        assert t > 0.0;
        assert safeOutflow * t > 0.0;
      }
    }
  }

  /** Megabytes taken by `count` items of `kbEach` kilobytes each (records
      in a backlog or a data object, or requests in one second). */
  function ToMB(count: real, kbEach: real): (mb: real)
    ensures mb * KBPerMB == count * kbEach
    ensures count >= 0.0 && kbEach >= 0.0 ==> mb >= 0.0
    ensures count == 0.0 || kbEach == 0.0 ==> mb == 0.0
  {
    assert count >= 0.0 && kbEach >= 0.0 ==> count * kbEach >= 0.0;
    (count * kbEach) / KBPerMB
  }

  /** Asynchronous queue: the run ends when the target has drained the whole
      volume at the floored drain rate; backlog and storage as above. */
  function AsyncQueue(volume: real, packetSize: real, payloadKB: real, inbound: real, outbound: real): (r: QueueFigures)
    ensures r.completionSeconds == CompletionSeconds(volume, outbound)
    ensures r.depthRecords == QueueDepth(volume, packetSize, inbound, SafeRate(outbound))
    ensures r.storageMB == ToMB(r.depthRecords, payloadKB)
    ensures volume >= 0.0 && packetSize >= 0.0 ==> 0.0 <= r.depthRecords <= volume
    ensures volume >= 0.0 && packetSize >= 0.0 && payloadKB >= 0.0 ==> r.storageMB >= 0.0
  {
    var depth := QueueDepth(volume, packetSize, inbound, SafeRate(outbound));
    QueueFigures(CompletionSeconds(volume, outbound), depth, ToMB(depth, payloadKB))
  }

  /** Synchronous route: no buffer decouples source and target, so the run
      ends when the inbound stream has delivered the volume and there is no
      backlog. */
  function SyncQueue(volume: real, inbound: real): (r: QueueFigures)
    ensures r.completionSeconds == CompletionSeconds(volume, inbound)
    ensures r.depthRecords == 0.0 && r.storageMB == 0.0
  {
    QueueFigures(CompletionSeconds(volume, inbound), 0.0, 0.0)
  }
}

=== FILE: rate_model.dfy ===
/** Per-route rates: packet splitting, the middleware ingress cap, the
    asynchronous inbound/outbound rates and the synchronous round trip with
    its thread-bound versus target-bound classification. */
module RateModel {
  import opened Types
  import opened Numeric

  /** Packet sizes the rate formulas can divide by: a positive source packet
      and a target override that is absent or not negative (a zero override
      counts as absent, like the original's `||`). */
  predicate PacketSizesOk(packetSize: real, target: TargetSystem)
  {
    packetSize > 0.0 && TargetPacketSizeOk(target)
  }

  predicate TargetPacketSizeOk(target: TargetSystem)
  {
    target.targetPacketSize.Some? ==> target.targetPacketSize.value >= 0.0
  }

  /** True when the target overrides the packet size with a usable value. */
  predicate HasTargetPacketSize(target: TargetSystem)
  {
    target.targetPacketSize.Some? && target.targetPacketSize.value != 0.0
  }

  /** Records actually sent per target call: the source packet, cut down to
      the target's maximum when it accepts fewer. */
  function EffTargetPacketSize(packetSize: real, target: TargetSystem): (r: real)
    requires PacketSizesOk(packetSize, target)
    ensures 0.0 < r <= packetSize
    ensures r == packetSize <==>
              (!HasTargetPacketSize(target) || target.targetPacketSize.value >= packetSize)
    ensures r < packetSize ==> r == target.targetPacketSize.value
  {
    var requested := if HasTargetPacketSize(target) then target.targetPacketSize.value else packetSize;
    Min(packetSize, requested)
  }

  /** Number of target calls one source request turns into: the fewest calls
      of `effTarget` records that together carry one source packet. */
  function SplitFactor(packetSize: real, effTarget: real): (r: int)
    requires 0.0 < effTarget <= packetSize
    ensures r >= 1
    ensures packetSize <= r as real * effTarget
    ensures (r - 1) as real * effTarget < packetSize
    ensures r == 1 <==> effTarget == packetSize
  {
    CeilDiv(packetSize, effTarget)
  }

  /** A smaller target packet never means fewer target calls per source request. */
  lemma {:induction false} SplitMonotone(packetSize: real, small: real, large: real)
    requires 0.0 < small <= large <= packetSize
    ensures SplitFactor(packetSize, small) >= SplitFactor(packetSize, large)
  {
    assert packetSize / large <= packetSize / small by {
      assert (packetSize / large) * large == packetSize;
      assert (packetSize / small) * small == packetSize;
      if packetSize / small < packetSize / large {
        MulMonotone(packetSize / small, packetSize / large, small);
        assert packetSize < (packetSize / large) * small;
        MulMonotone(small, large, packetSize / large);
        assert false;
      }
    }
    CeilMonotone(packetSize / large, packetSize / small);
  }

  /** One target call per source request exactly when the target has no
      usable override or its override is at least the source packet. */
  lemma SplitOneUnlessSmallerOverride(packetSize: real, target: TargetSystem)
    requires PacketSizesOk(packetSize, target)
    ensures SplitFactor(packetSize, EffTargetPacketSize(packetSize, target)) == 1
            <==> !HasTargetPacketSize(target) || target.targetPacketSize.value >= packetSize
  {
  }

  /** The same statement over two targets that override the packet size. */
  lemma {:induction false} SplitMonotoneInTarget(packetSize: real, t1: TargetSystem, t2: TargetSystem)
    requires PacketSizesOk(packetSize, t1) && PacketSizesOk(packetSize, t2)
    requires HasTargetPacketSize(t1) && HasTargetPacketSize(t2)
    requires t1.targetPacketSize.value <= t2.targetPacketSize.value
    ensures SplitFactor(packetSize, EffTargetPacketSize(packetSize, t1))
            >= SplitFactor(packetSize, EffTargetPacketSize(packetSize, t2))
  {
    SplitMonotone(packetSize, EffTargetPacketSize(packetSize, t1), EffTargetPacketSize(packetSize, t2));
  }

  /** Whether the middleware ingress cap applies: the toggle is on and the
      RPM is present and nonzero (the original tests both for truthiness). */
  predicate IngressCapActive(target: TargetSystem)
  {
    && target.middlewareRateLimitEnabled == Some(true)
    && target.middlewareIngressRPM.Some?
    && target.middlewareIngressRPM.value != 0.0
  }

  datatype Throttle = Throttle(limitRPS: real, effectiveRPS: real, isThrottled: bool)

  /** The ingress cap on a theoretical inbound rate, identical in both modes. */
  function ApplyIngressCap(theoretical: real, target: TargetSystem): (r: Throttle)
    ensures IngressCapActive(target) ==> r.limitRPS * 60.0 == target.middlewareIngressRPM.value
    ensures !IngressCapActive(target) ==> r.limitRPS == 0.0 && !r.isThrottled
    ensures r.isThrottled <==> IngressCapActive(target) && theoretical > r.limitRPS
    ensures IngressCapActive(target) ==> r.effectiveRPS == Min(theoretical, r.limitRPS)
    ensures !IngressCapActive(target) ==> r.effectiveRPS == theoretical
    ensures r.effectiveRPS == if r.isThrottled then r.limitRPS else theoretical
  {
    if IngressCapActive(target) then
      var limit := target.middlewareIngressRPM.value / 60.0;
      if theoretical > limit then Throttle(limit, limit, true)
      else Throttle(limit, theoretical, false)
    else
      Throttle(0.0, theoretical, false)
  }

  /** Asynchronous inbound rate: each of the parallel channels completes one
      acknowledged request per middleware response time. */
  function AsyncTheoreticalRPS(config: GlobalConfig): (r: real)
    requires config.avgMiddlewareResponseTimeMs > 0.0
    ensures r * config.avgMiddlewareResponseTimeMs == 1000.0 * config.mdgConcurrency
    ensures config.mdgConcurrency >= 0.0 ==> r >= 0.0
  {
    var perChannel := 1000.0 / config.avgMiddlewareResponseTimeMs;
    assert perChannel * config.avgMiddlewareResponseTimeMs == 1000.0;
    perChannel * config.mdgConcurrency
  }

  /** Records per second carried by `rps` requests per second of
      `packetSize` records each. */
  function RecordsPerSec(rps: real, packetSize: real): real
  {
    rps * packetSize
  }

  /** Asynchronous drain rate in records per second: the target's calls per
      second, each carrying one effective target packet. */
  function AsyncOutboundRecordsPerSec(apiRateLimitRPM: real, effTarget: real): (r: real)
    ensures r * 60.0 == apiRateLimitRPM * effTarget
  {
    (apiRateLimitRPM * effTarget) / 60.0
  }

  /** Seconds one target call takes at the target's rate limit; a target
      without a positive limit is treated as answering every 0.1 s. */
  function TargetLatencySec(apiRateLimitRPM: real): (r: real)
    ensures r > 0.0
    ensures apiRateLimitRPM > 0.0 ==> r * apiRateLimitRPM == 60.0
    ensures apiRateLimitRPM <= 0.0 ==> r == 0.1
  {
    if apiRateLimitRPM > 0.0 then 60.0 / apiRateLimitRPM else 0.1
  }

  datatype SyncBounds = SyncBounds(rttSeconds: real, byThreads: real, byTarget: real)

  /** Synchronous bounds: the round trip covers the middleware overhead and
      every split sub-call in sequence; the thread pool then caps the rate at
      concurrency per round trip and the target at its calls per second
      divided among the split sub-calls. */
  function SyncRates(config: GlobalConfig, apiRateLimitRPM: real, splitFactor: int): (r: SyncBounds)
    requires config.avgMiddlewareResponseTimeMs > 0.0
    requires splitFactor >= 1
    ensures r.rttSeconds * 1000.0
            == config.avgMiddlewareResponseTimeMs + 1000.0 * splitFactor as real * TargetLatencySec(apiRateLimitRPM)
    ensures r.rttSeconds > config.avgMiddlewareResponseTimeMs / 1000.0
    ensures r.byThreads * r.rttSeconds == config.mdgConcurrency
    ensures r.byTarget * splitFactor as real * 60.0 == apiRateLimitRPM
  {
    var overheadSec := config.avgMiddlewareResponseTimeMs / 1000.0;
    var rtt := overheadSec + splitFactor as real * TargetLatencySec(apiRateLimitRPM);
    assert rtt > 0.0;
    var byThreads := config.mdgConcurrency / rtt;
    var byTarget := (apiRateLimitRPM / 60.0) / splitFactor as real;
    assert byThreads * rtt == config.mdgConcurrency;
    assert byTarget * splitFactor as real == apiRateLimitRPM / 60.0;
    SyncBounds(rtt, byThreads, byTarget)
  }

  /** Synchronous theoretical rate: whichever bound binds. */
  function SyncTheoreticalRPS(b: SyncBounds): (r: real)
    ensures r <= b.byThreads && r <= b.byTarget
    ensures r == b.byThreads || r == b.byTarget
  {
    Min(b.byThreads, b.byTarget)
  }

  /** The route is thread-bound exactly when the thread pool is strictly the tighter bound. */
  predicate IsThreadBound(b: SyncBounds)
  {
    b.byThreads < b.byTarget
  }

  /** Target calls per minute caused by `rps` source requests per second,
      each split into `splitFactor` calls. */
  function TargetCallsPerMinute(rps: real, splitFactor: int): real
  {
    rps * splitFactor as real * 60.0
  }

  /** Requests in flight at `rps` requests per second, each held for
      `rttSeconds` (Little's law). */
  function InFlight(rps: real, rttSeconds: real): real
  {
    rps * rttSeconds
  }

  /** A synchronous route never asks more of the target than its rate limit
      allows, and never keeps more requests in flight than the concurrency;
      any lower rate keeps within both too. */
  lemma {:induction false} SyncRespectsBothLimits(config: GlobalConfig, apiRateLimitRPM: real, splitFactor: int, e: real)
    requires config.avgMiddlewareResponseTimeMs > 0.0
    requires splitFactor >= 1
    requires e <= SyncTheoreticalRPS(SyncRates(config, apiRateLimitRPM, splitFactor))
    ensures TargetCallsPerMinute(e, splitFactor) <= apiRateLimitRPM
    ensures InFlight(e, SyncRates(config, apiRateLimitRPM, splitFactor).rttSeconds) <= config.mdgConcurrency
  {
    var b := SyncRates(config, apiRateLimitRPM, splitFactor);
    var k := splitFactor as real * 60.0;
    MulMonotone(e, b.byTarget, k);
    assert b.byTarget * k == apiRateLimitRPM;
    assert e * k == TargetCallsPerMinute(e, splitFactor);
    MulMonotone(e, b.byThreads, b.rttSeconds);
  }

  /** The synchronous theoretical rate is the thread bound when the route is
      thread-bound and the target bound otherwise. */
  lemma SyncBottleneck(b: SyncBounds)
    ensures IsThreadBound(b) ==> SyncTheoreticalRPS(b) == b.byThreads
    ensures !IsThreadBound(b) ==> SyncTheoreticalRPS(b) == b.byTarget
  {
  }
}

=== FILE: route_model.dfy ===
/** One route: a data object replicated to one target, in either
    integration pattern, assembled into the route record the engine reports. */
module RouteModel {
  import opened Types
  import opened Numeric
  import opened RateModel
  import opened QueueModel

  /** What a single route evaluation needs of its inputs: a positive
      middleware response time (the asynchronous rate divides by it) and
      packet sizes the split arithmetic can divide by. */
  predicate RouteInputsOk(mdo: MasterDataObject, target: TargetSystem, config: GlobalConfig)
  {
    config.avgMiddlewareResponseTimeMs > 0.0 && PacketSizesOk(mdo.packetSize, target)
  }

  /** Source requests per second the route actually pushes: the ingress
      limit when it throttled the route, else the theoretical rate. */
  function EffectiveRPS(q: QueueResult): real
  {
    if q.isThrottled then q.middlewareLimitRPS else q.theoreticalInboundRPS
  }

  /** Source packets needed to carry a data object's whole volume. */
  function PacketCount(mdo: MasterDataObject): (n: int)
    requires mdo.packetSize > 0.0
    ensures mdo.volume <= n as real * mdo.packetSize
    ensures (n - 1) as real * mdo.packetSize < mdo.volume
    ensures mdo.volume >= 0.0 ==> n >= 0
  {
    CeilDiv(mdo.volume, mdo.packetSize)
  }

  /** Payload of one source packet in kilobytes. */
  function PacketPayloadKB(mdo: MasterDataObject): real
  {
    mdo.packetSize * mdo.payloadSizePerRecordKB
  }

  /** Whole backlog packets: the fewest packets that hold the backlog, so a
      partly filled packet counts as one. Never more than the packets of the
      whole volume. */
  function DepthPackets(depthRecords: real, mdo: MasterDataObject): (n: int)
    requires mdo.packetSize > 0.0
    ensures depthRecords <= n as real * mdo.packetSize
    ensures (n - 1) as real * mdo.packetSize < depthRecords
    ensures 0.0 <= depthRecords <= mdo.volume ==> 0 <= n <= PacketCount(mdo)
  {
    DepthWithinVolume(depthRecords, mdo);
    CeilDiv(depthRecords, mdo.packetSize)
  }

  lemma DepthWithinVolume(depthRecords: real, mdo: MasterDataObject)
    requires mdo.packetSize > 0.0
    ensures 0.0 <= depthRecords <= mdo.volume ==> CeilDiv(depthRecords, mdo.packetSize) <= PacketCount(mdo)
  {
    if 0.0 <= depthRecords <= mdo.volume {
      CeilDivMonotone(depthRecords, mdo.volume, mdo.packetSize);
    }
  }

  /** Asynchronous route: inbound fixed by the middleware acknowledgement
      time and the ingress cap; outbound fixed by the target's rate limit and
      packet size; a queue in between. */
  function AsyncRoute(mdo: MasterDataObject, target: TargetSystem, config: GlobalConfig): (r: QueueResult)
    requires RouteInputsOk(mdo, target, config)
    ensures r.theoreticalInboundRPS == AsyncTheoreticalRPS(config)
    ensures r.outboundProcessingRateRecordsPerSec
            == AsyncOutboundRecordsPerSec(target.apiRateLimitRPM, r.effectiveTargetPacketSize)
    ensures r.completionTimeSeconds == CompletionSeconds(mdo.volume, r.outboundProcessingRateRecordsPerSec)
    ensures !r.isThreadBound
    ensures mdo.volume >= 0.0 ==> 0 <= r.maxQueueDepthPackets <= r.totalPackets
    ensures mdo.volume >= 0.0 && mdo.payloadSizePerRecordKB >= 0.0 ==> r.maxQueueStorageMB >= 0.0
    // the reported backlog and storage are those of the queue between the two rates
    ensures var q := AsyncQueue(mdo.volume, mdo.packetSize, mdo.payloadSizePerRecordKB,
                                r.inboundThroughputRecordsPerSec, r.outboundProcessingRateRecordsPerSec);
            && r.maxQueueDepthPackets == DepthPackets(q.depthRecords, mdo)
            && r.maxQueueStorageMB == q.storageMB
    ensures RouteShape(mdo, target, config, r)
  {
    var eff := EffTargetPacketSize(mdo.packetSize, target);
    var split := SplitFactor(mdo.packetSize, eff);
    var theoretical := AsyncTheoreticalRPS(config);
    var cap := ApplyIngressCap(theoretical, target);
    var inbound := RecordsPerSec(cap.effectiveRPS, mdo.packetSize);
    var outflow := AsyncOutboundRecordsPerSec(target.apiRateLimitRPM, eff);
    var queue := AsyncQueue(mdo.volume, mdo.packetSize, mdo.payloadSizePerRecordKB, inbound, outflow);
    var result := QueueResult(
      targetName := target.name,
      targetId := target.id,
      middlewareClusterId := target.middlewareClusterId,
      mdoName := mdo.name,
      totalRecords := mdo.volume,
      totalPackets := PacketCount(mdo),
      payloadPerPacketKB := PacketPayloadKB(mdo),
      totalDataMB := ToMB(mdo.volume, mdo.payloadSizePerRecordKB),
      splitFactor := split,
      effectiveTargetPacketSize := eff,
      inboundThroughputRecordsPerSec := inbound,
      theoreticalInboundRPS := theoretical,
      middlewareLimitRPS := cap.limitRPS,
      isThrottled := cap.isThrottled,
      usedThreads := config.mdgConcurrency,
      isThreadBound := false,
      outboundProcessingRateRecordsPerSec := outflow,
      completionTimeSeconds := queue.completionSeconds,
      maxQueueDepthPackets := DepthPackets(queue.depthRecords, mdo),
      maxQueueStorageMB := queue.storageMB,
      isStorageOverflow := false);
    assert EffectiveRPS(result) == cap.effectiveRPS;
    result
  }

  /** Synchronous route: the source blocks for the whole round trip, so the
      rate is the tighter of the thread-pool and target bounds (then the
      ingress cap), outbound equals inbound and nothing is queued. */
  function SyncRoute(mdo: MasterDataObject, target: TargetSystem, config: GlobalConfig): (r: QueueResult)
    requires RouteInputsOk(mdo, target, config)
    ensures r.splitFactor >= 1
    ensures r.theoreticalInboundRPS
            == SyncTheoreticalRPS(SyncRates(config, target.apiRateLimitRPM, r.splitFactor))
    ensures r.isThreadBound <==> IsThreadBound(SyncRates(config, target.apiRateLimitRPM, r.splitFactor))
    ensures r.outboundProcessingRateRecordsPerSec == r.inboundThroughputRecordsPerSec
    ensures r.completionTimeSeconds == CompletionSeconds(mdo.volume, r.inboundThroughputRecordsPerSec)
    ensures r.maxQueueDepthPackets == 0 && r.maxQueueStorageMB == 0.0
    ensures RouteShape(mdo, target, config, r)
  {
    var eff := EffTargetPacketSize(mdo.packetSize, target);
    var split := SplitFactor(mdo.packetSize, eff);
    var bounds := SyncRates(config, target.apiRateLimitRPM, split);
    var theoretical := SyncTheoreticalRPS(bounds);
    var cap := ApplyIngressCap(theoretical, target);
    var inbound := RecordsPerSec(cap.effectiveRPS, mdo.packetSize);
    var queue := SyncQueue(mdo.volume, inbound);
    var result := QueueResult(
      targetName := target.name,
      targetId := target.id,
      middlewareClusterId := target.middlewareClusterId,
      mdoName := mdo.name,
      totalRecords := mdo.volume,
      totalPackets := PacketCount(mdo),
      payloadPerPacketKB := PacketPayloadKB(mdo),
      totalDataMB := ToMB(mdo.volume, mdo.payloadSizePerRecordKB),
      splitFactor := split,
      effectiveTargetPacketSize := eff,
      inboundThroughputRecordsPerSec := inbound,
      theoreticalInboundRPS := theoretical,
      middlewareLimitRPS := cap.limitRPS,
      isThrottled := cap.isThrottled,
      usedThreads := config.mdgConcurrency,
      isThreadBound := IsThreadBound(bounds),
      outboundProcessingRateRecordsPerSec := inbound,
      completionTimeSeconds := queue.completionSeconds,
      maxQueueDepthPackets := DepthPackets(queue.depthRecords, mdo),
      maxQueueStorageMB := queue.storageMB,
      isStorageOverflow := false);
    assert EffectiveRPS(result) == cap.effectiveRPS;
    result
  }

  /** What every route record states regardless of the pattern: it names
      its data object and target, carries the packet split, holds one full
      channel pool of threads, reports its throttling as the ingress cap
      decided it and pushes records at its effective request rate. */
  ghost predicate RouteShape(mdo: MasterDataObject, target: TargetSystem, config: GlobalConfig, r: QueueResult)
    requires RouteInputsOk(mdo, target, config)
  {
    && r.targetName == target.name
    && r.targetId == target.id
    && r.middlewareClusterId == target.middlewareClusterId
    && r.mdoName == mdo.name
    && r.totalRecords == mdo.volume
    && r.totalPackets == PacketCount(mdo)
    && r.payloadPerPacketKB == PacketPayloadKB(mdo)
    && r.totalDataMB == ToMB(mdo.volume, mdo.payloadSizePerRecordKB)
    && r.effectiveTargetPacketSize == EffTargetPacketSize(mdo.packetSize, target)
    && r.splitFactor == SplitFactor(mdo.packetSize, r.effectiveTargetPacketSize)
    && r.usedThreads == config.mdgConcurrency
    && (r.isThrottled <==> IngressCapActive(target) && r.theoreticalInboundRPS > r.middlewareLimitRPS)
    && (IngressCapActive(target) ==> r.middlewareLimitRPS * 60.0 == target.middlewareIngressRPM.value)
    && (!IngressCapActive(target) ==> r.middlewareLimitRPS == 0.0)
    && EffectiveRPS(r) <= r.theoreticalInboundRPS
    && r.inboundThroughputRecordsPerSec == RecordsPerSec(EffectiveRPS(r), mdo.packetSize)
    && !r.isStorageOverflow
  }

  /** A route reports the source packets of its whole data object. */
  lemma RoutePackets(mdo: MasterDataObject, target: TargetSystem, config: GlobalConfig)
    requires RouteInputsOk(mdo, target, config)
    ensures RouteFor(mdo, target, config).totalPackets == PacketCount(mdo)
  {
  }

  /** The route record for one (data object, target) pair under the global
      pattern. */
  function RouteFor(mdo: MasterDataObject, target: TargetSystem, config: GlobalConfig): (r: QueueResult)
    requires RouteInputsOk(mdo, target, config)
    ensures RouteShape(mdo, target, config, r)
    ensures config.integrationPattern == Async ==> r == AsyncRoute(mdo, target, config)
    ensures config.integrationPattern == Sync ==> r == SyncRoute(mdo, target, config)
  {
    match config.integrationPattern
    case Async => AsyncRoute(mdo, target, config)
    case Sync => SyncRoute(mdo, target, config)
  }
}

=== FILE: scenarios.dfy ===
/** Worked figures for the planner's default topology: the "Customer Master"
    data object replicated to the "SAP S/4HANA (US)" target at 200 ms
    middleware response time and 4 parallel channels. */
module Scenarios {
  import opened Types
  import opened Numeric
  import opened RateModel
  import opened QueueModel
  import opened RouteModel

  /** 500 000 records in packets of 100, 1.5 KB per record. */
  const CustomerMaster: MasterDataObject := MasterDataObject("1", "Customer Master", 500000.0, 100.0, 1.5)

  /** 3000 calls per minute, no packet override, ingress cap switched off. */
  const S4Hana: TargetSystem :=
    TargetSystem("t1", "c1", "SAP S/4HANA (US)", 3000.0, None, Realtime, None, Some(false), Some(30.0))

  const QueuedConfig: GlobalConfig := GlobalConfig(200.0, 4.0, Async)

  const BlockingConfig: GlobalConfig := GlobalConfig(200.0, 4.0, Sync)

  /** Queued: 20 requests per second in, 5000 records per second out, so the
      run takes 100 s and the queue never holds more than one packet. */
  lemma DefaultQueuedRoute()
    ensures var r := RouteFor(CustomerMaster, S4Hana, QueuedConfig);
            && r.splitFactor == 1
            && r.totalPackets == 5000
            && r.theoreticalInboundRPS == 20.0
            && !r.isThrottled && r.middlewareLimitRPS == 0.0
            && r.inboundThroughputRecordsPerSec == 2000.0
            && r.outboundProcessingRateRecordsPerSec == 5000.0
            && r.completionTimeSeconds == 100.0
            && r.maxQueueDepthPackets == 1
            && r.maxQueueStorageMB == 150.0 / 1024.0
  {
    var r := AsyncRoute(CustomerMaster, S4Hana, QueuedConfig);
    assert r.theoreticalInboundRPS * 200.0 == 4000.0;
    assert r.outboundProcessingRateRecordsPerSec * 60.0 == 300000.0;
    assert r.completionTimeSeconds * 5000.0 == 500000.0;
  }

  /** Blocking: each request takes 0.2 s of middleware time plus one 0.02 s
      target call, so the four channels allow 4 / 0.22 requests per second,
      below the target's 50; the rate is thread-bound. */
  lemma DefaultBlockingBounds()
    ensures var b := SyncRates(BlockingConfig, 3000.0, 1);
            && b.rttSeconds == 0.22
            && b.byThreads == 4.0 / 0.22
            && b.byTarget == 50.0
            && IsThreadBound(b)
            && SyncTheoreticalRPS(b) == 4.0 / 0.22
  {
    var b := SyncRates(BlockingConfig, 3000.0, 1);
    assert TargetLatencySec(3000.0) == 0.02;
    assert b.rttSeconds == 0.22;
  }

  /** The blocking route built on those bounds: 400 / 0.22 records per
      second in and out, 275 s to finish, nothing queued. */
  lemma DefaultBlockingRoute()
    ensures var r := RouteFor(CustomerMaster, S4Hana, BlockingConfig);
            && r.splitFactor == 1
            && r.isThreadBound
            && r.theoreticalInboundRPS == 4.0 / 0.22
            && r.inboundThroughputRecordsPerSec == 400.0 / 0.22
            && r.outboundProcessingRateRecordsPerSec == r.inboundThroughputRecordsPerSec
            && r.completionTimeSeconds == 275.0
            && r.maxQueueDepthPackets == 0 && r.maxQueueStorageMB == 0.0
  {
    var r := SyncRoute(CustomerMaster, S4Hana, BlockingConfig);
    assert r.splitFactor == 1;
    DefaultBlockingBounds();
    assert r.inboundThroughputRecordsPerSec == 400.0 / 0.22;
    assert r.completionTimeSeconds * (400.0 / 0.22) == 500000.0;
  }

  /** The same target with its ingress cap of 30 calls per minute switched
      on: the 20 requests per second are cut to 0.5, and the queue still
      holds one packet since the target drains faster than it fills. */
  lemma CappedQueuedRoute()
    ensures var t := S4Hana.(middlewareRateLimitEnabled := Some(true));
            var r := RouteFor(CustomerMaster, t, QueuedConfig);
            && r.isThrottled
            && r.middlewareLimitRPS == 0.5
            && EffectiveRPS(r) == 0.5
            && r.inboundThroughputRecordsPerSec == 50.0
            && r.completionTimeSeconds == 100.0
            && r.maxQueueDepthPackets == 1
  {
    var t := S4Hana.(middlewareRateLimitEnabled := Some(true));
    var r := AsyncRoute(CustomerMaster, t, QueuedConfig);
    assert r.theoreticalInboundRPS * 200.0 == 4000.0;
    assert r.middlewareLimitRPS * 60.0 == 30.0;
    assert r.outboundProcessingRateRecordsPerSec * 60.0 == 300000.0;
    assert r.completionTimeSeconds * 5000.0 == 500000.0;
  }

  /** A target that accepts 30 records per call splits each 100-record
      source packet into 4 calls. */
  lemma SplitIntoFour()
    ensures EffTargetPacketSize(100.0, S4Hana.(targetPacketSize := Some(30.0))) == 30.0
    ensures SplitFactor(100.0, 30.0) == 4
  {
    CeilDivBounds(100.0, 30.0, 100.0 / 30.0, SplitFactor(100.0, 30.0));
  }
}

=== FILE: selection.dfy ===
/** Route selection: which (data object, target) pairs are computed, and in
    what order. A pair is computed when the first mapping naming it is
    active; pairs are visited data object by data object, and within one
    data object target by target. */
module Selection {
  import opened Types

  predicate Matches(m: Mapping, mdo: MasterDataObject, target: TargetSystem)
  {
    m.mdoId == mdo.id && m.targetId == target.id
  }

  /** Position of the first mapping that names the pair, or the length of
      the list when none does. */
  function FirstMatch(mappings: seq<Mapping>, mdo: MasterDataObject, target: TargetSystem): (k: nat)
    ensures k <= |mappings|
    ensures k < |mappings| ==> Matches(mappings[k], mdo, target)
    ensures forall l :: 0 <= l < k ==> !Matches(mappings[l], mdo, target)
    decreases |mappings|
  {
    if |mappings| == 0 then 0
    else if Matches(mappings[0], mdo, target) then 0
    else 1 + FirstMatch(mappings[1..], mdo, target)
  }

  /** The pair is routed: its first mapping exists and is active. */
  predicate IsMapped(mappings: seq<Mapping>, mdo: MasterDataObject, target: TargetSystem)
  {
    var k := FirstMatch(mappings, mdo, target);
    k < |mappings| && mappings[k].active
  }

  /** Mappings after the first match for a pair cannot change whether it is
      routed: a duplicate mapping is shadowed by the earlier one. */
  lemma {:induction false} FirstMatchWins(mappings: seq<Mapping>, extra: seq<Mapping>, mdo: MasterDataObject, target: TargetSystem)
    requires exists k :: 0 <= k < |mappings| && Matches(mappings[k], mdo, target)
    ensures FirstMatch(mappings + extra, mdo, target) == FirstMatch(mappings, mdo, target)
    ensures IsMapped(mappings + extra, mdo, target) <==> IsMapped(mappings, mdo, target)
    decreases |mappings|
  {
    var all := mappings + extra;
    if Matches(mappings[0], mdo, target) {
      assert all[0] == mappings[0];
    } else {
      assert all[0] == mappings[0];
      assert all[1..] == mappings[1..] + extra;
      var k :| 0 <= k < |mappings| && Matches(mappings[k], mdo, target);
      assert Matches(mappings[1..][k - 1], mdo, target);
      FirstMatchWins(mappings[1..], extra, mdo, target);
    }
  }

  /** A pair with no mapping at all is never routed. */
  lemma UnmappedPairSkipped(mappings: seq<Mapping>, mdo: MasterDataObject, target: TargetSystem)
    requires forall l :: 0 <= l < |mappings| ==> !Matches(mappings[l], mdo, target)
    ensures !IsMapped(mappings, mdo, target)
  {
  }

  /** Visiting order of routes: by data object, then by target. */
  predicate Before(p: (nat, nat), q: (nat, nat))
  {
    p.0 < q.0 || (p.0 == q.0 && p.1 < q.1)
  }

  predicate StrictlyOrdered(ps: seq<(nat, nat)>)
  {
    forall x, y :: 0 <= x < y < |ps| ==> Before(ps[x], ps[y])
  }

  /** Routed targets of data object `i`, from target `j` on, as index pairs. */
  function ActiveRow(mdos: seq<MasterDataObject>, targets: seq<TargetSystem>, mappings: seq<Mapping>, i: nat, j: nat)
    : (row: seq<(nat, nat)>)
    requires i < |mdos| && j <= |targets|
    ensures forall p :: p in row ==> p.0 == i && j <= p.1 < |targets| && IsMapped(mappings, mdos[i], targets[p.1])
    ensures forall b :: j <= b < |targets| && IsMapped(mappings, mdos[i], targets[b]) ==> (i, b) in row
    ensures StrictlyOrdered(row)
    decreases |targets| - j
  {
    if j == |targets| then []
    else
      var rest := ActiveRow(mdos, targets, mappings, i, j + 1);
      if IsMapped(mappings, mdos[i], targets[j]) then [(i, j)] + rest else rest
  }

  /** Every routed pair of data objects `i` onwards, in visiting order. */
  function ActivePairsFrom(mdos: seq<MasterDataObject>, targets: seq<TargetSystem>, mappings: seq<Mapping>, i: nat)
    : (ps: seq<(nat, nat)>)
    requires i <= |mdos|
    ensures forall p :: p in ps ==>
              i <= p.0 < |mdos| && p.1 < |targets| && IsMapped(mappings, mdos[p.0], targets[p.1])
    ensures forall a, b :: i <= a < |mdos| && 0 <= b < |targets| && IsMapped(mappings, mdos[a], targets[b])
              ==> (a, b) in ps
    ensures StrictlyOrdered(ps)
    decreases |mdos| - i
  {
    if i == |mdos| then []
    else
      var row := ActiveRow(mdos, targets, mappings, i, 0);
      var rest := ActivePairsFrom(mdos, targets, mappings, i + 1);
      ConcatOrdered(row, rest, i);
      row + rest
  }

  /** A row of data object `i` followed by pairs of later data objects
      stays in visiting order. */
  lemma ConcatOrdered(row: seq<(nat, nat)>, rest: seq<(nat, nat)>, i: nat)
    requires StrictlyOrdered(row) && StrictlyOrdered(rest)
    requires forall p :: p in row ==> p.0 == i
    requires forall p :: p in rest ==> p.0 > i
    ensures StrictlyOrdered(row + rest)
  {
    var all := row + rest;
    forall x, y | 0 <= x < y < |all|
      ensures Before(all[x], all[y])
    {
      if y < |row| {
        assert all[x] == row[x] && all[y] == row[y];
      } else if x >= |row| {
        assert all[x] == rest[x - |row|] && all[y] == rest[y - |row|];
      } else {
        assert all[x] == row[x] && row[x] in row;
        assert all[y] == rest[y - |row|] && rest[y - |row|] in rest;
      }
    }
  }

  /** All routed pairs, in the order their routes are reported. */
  function ActivePairs(mdos: seq<MasterDataObject>, targets: seq<TargetSystem>, mappings: seq<Mapping>)
    : (ps: seq<(nat, nat)>)
    ensures forall p :: p in ps ==>
              p.0 < |mdos| && p.1 < |targets| && IsMapped(mappings, mdos[p.0], targets[p.1])
    ensures forall a, b :: 0 <= a < |mdos| && 0 <= b < |targets| && IsMapped(mappings, mdos[a], targets[b])
              ==> (a, b) in ps
    ensures StrictlyOrdered(ps)
  {
    ActivePairsFrom(mdos, targets, mappings, 0)
  }

  /** Without an active mapping no pair is routed. */
  lemma NoActiveMappingNoPairs(mdos: seq<MasterDataObject>, targets: seq<TargetSystem>, mappings: seq<Mapping>)
    requires forall l :: 0 <= l < |mappings| ==> !mappings[l].active
    ensures ActivePairs(mdos, targets, mappings) == []
  {
    NoActiveMappingNoPairsFrom(mdos, targets, mappings, 0);
  }

  lemma {:induction false} NoActiveMappingNoPairsFrom(mdos: seq<MasterDataObject>, targets: seq<TargetSystem>, mappings: seq<Mapping>, i: nat)
    requires forall l :: 0 <= l < |mappings| ==> !mappings[l].active
    requires i <= |mdos|
    ensures ActivePairsFrom(mdos, targets, mappings, i) == []
    decreases |mdos| - i
  {
    if i < |mdos| {
      NoActiveMappingEmptyRow(mdos, targets, mappings, i, 0);
      NoActiveMappingNoPairsFrom(mdos, targets, mappings, i + 1);
    }
  }

  lemma {:induction false} NoActiveMappingEmptyRow(mdos: seq<MasterDataObject>, targets: seq<TargetSystem>, mappings: seq<Mapping>, i: nat, j: nat)
    requires forall l :: 0 <= l < |mappings| ==> !mappings[l].active
    requires i < |mdos| && j <= |targets|
    ensures ActiveRow(mdos, targets, mappings, i, j) == []
    decreases |targets| - j
  {
    if j < |targets| {
      NoActiveMappingEmptyRow(mdos, targets, mappings, i, j + 1);
    }
  }

  /** Which targets a data object is routed to depends only on the targets' ids. */
  lemma {:induction false} RowSameIds(
    mdos: seq<MasterDataObject>, ts: seq<TargetSystem>, us: seq<TargetSystem>, mappings: seq<Mapping>, i: nat, j: nat)
    requires |ts| == |us| && i < |mdos| && j <= |ts|
    requires forall k :: 0 <= k < |ts| ==> ts[k].id == us[k].id
    ensures ActiveRow(mdos, ts, mappings, i, j) == ActiveRow(mdos, us, mappings, i, j)
    decreases |ts| - j
  {
    if j < |ts| {
      var tail := ActiveRow(mdos, ts, mappings, i, j + 1);
      RowSameIds(mdos, ts, us, mappings, i, j + 1);
      FirstMatchSameIds(mappings, mdos[i], ts[j], us[j]);
      var mapped := IsMapped(mappings, mdos[i], ts[j]);
      assert mapped == IsMapped(mappings, mdos[i], us[j]);
      assert ActiveRow(mdos, ts, mappings, i, j) == if mapped then [(i, j)] + tail else tail;
      assert ActiveRow(mdos, us, mappings, i, j) == if mapped then [(i, j)] + tail else tail;
    }
  }

  /** The first match depends only on the target's id. */
  lemma {:induction false} FirstMatchSameIds(mappings: seq<Mapping>, mdo: MasterDataObject, t: TargetSystem, u: TargetSystem)
    requires t.id == u.id
    ensures FirstMatch(mappings, mdo, t) == FirstMatch(mappings, mdo, u)
    decreases |mappings|
  {
    if |mappings| > 0 {
      FirstMatchSameIds(mappings[1..], mdo, t, u);
    }
  }

  /** All routed pairs depend only on the targets' ids. */
  lemma {:induction false} PairsSameIds(
    mdos: seq<MasterDataObject>, ts: seq<TargetSystem>, us: seq<TargetSystem>, mappings: seq<Mapping>, i: nat)
    requires |ts| == |us| && i <= |mdos|
    requires forall k :: 0 <= k < |ts| ==> ts[k].id == us[k].id
    ensures ActivePairsFrom(mdos, ts, mappings, i) == ActivePairsFrom(mdos, us, mappings, i)
    decreases |mdos| - i
  {
    if i < |mdos| {
      RowSameIds(mdos, ts, us, mappings, i, 0);
      PairsSameIds(mdos, ts, us, mappings, i + 1);
      assert ActivePairsFrom(mdos, ts, mappings, i)
          == ActiveRow(mdos, ts, mappings, i, 0) + ActivePairsFrom(mdos, ts, mappings, i + 1);
      assert ActivePairsFrom(mdos, us, mappings, i)
          == ActiveRow(mdos, us, mappings, i, 0) + ActivePairsFrom(mdos, us, mappings, i + 1);
    }
  }
}

=== FILE: simulation.dfy ===
/** The engine's single operation: from data objects, targets, mappings, the
    global configuration and the clusters, every routed pair's figures, the
    cluster health report and the scalar aggregates. */
module Simulation {
  import opened Types
  import opened RateModel
  import opened QueueModel
  import opened RouteModel
  import opened ClusterModel
  import opened Selection
  import opened Aggregates

  /** Inputs every formula can divide by: a positive middleware response
      time, positive source packets and target packet overrides that are
      absent, zero (meaning absent) or positive. */
  predicate ValidInputs(mdos: seq<MasterDataObject>, targets: seq<TargetSystem>, config: GlobalConfig)
  {
    && config.avgMiddlewareResponseTimeMs > 0.0
    && (forall i :: 0 <= i < |mdos| ==> mdos[i].packetSize > 0.0)
    && (forall j :: 0 <= j < |targets| ==> TargetPacketSizeOk(targets[j]))
  }

  /** The route records of a list of index pairs, one per pair. */
  function RoutesOf(mdos: seq<MasterDataObject>, targets: seq<TargetSystem>, config: GlobalConfig, ps: seq<(nat, nat)>)
    : (rs: seq<QueueResult>)
    requires ValidInputs(mdos, targets, config)
    requires forall p :: p in ps ==> p.0 < |mdos| && p.1 < |targets|
    ensures |rs| == |ps|
    ensures forall k :: 0 <= k < |ps| ==> rs[k] == RouteFor(mdos[ps[k].0], targets[ps[k].1], config)
  {
    seq(|ps|, k requires 0 <= k < |ps| =>
      assert ps[k] in ps;
      RouteFor(mdos[ps[k].0], targets[ps[k].1], config))
  }

  /** Source requests over all data objects from `i` on: each data object's
      packet count times the number of targets it is routed to. */
  function TotalApiRequestsFrom(mdos: seq<MasterDataObject>, targets: seq<TargetSystem>, mappings: seq<Mapping>, i: nat): int
    requires i <= |mdos|
    requires forall k :: 0 <= k < |mdos| ==> mdos[k].packetSize > 0.0
    decreases |mdos| - i
  {
    if i == |mdos| then 0
    else RowRequests(mdos, targets, mappings, i) + TotalApiRequestsFrom(mdos, targets, mappings, i + 1)
  }

  /** Source requests for data object `i`: its packet count once per target
      it is routed to, whatever the split factor. */
  function RowRequests(mdos: seq<MasterDataObject>, targets: seq<TargetSystem>, mappings: seq<Mapping>, i: nat): int
    requires i < |mdos| && mdos[i].packetSize > 0.0
  {
    PacketCount(mdos[i]) * |ActiveRow(mdos, targets, mappings, i, 0)|
  }

  /** Per-cluster usage after folding every route into the zeroed map. */
  function ClusterUsage(clusters: seq<MiddlewareCluster>, config: GlobalConfig, routes: seq<QueueResult>): (u: map<string, Usage>)
    ensures forall i :: 0 <= i < |clusters| ==> clusters[i].id in u
    ensures forall id :: id in u ==> exists i :: 0 <= i < |clusters| && clusters[i].id == id
  {
    Fold(InitialUsage(clusters), config, routes)
  }

  /** Every configured cluster's folded usage is the reference sum of the
      routes that name it. */
  lemma ClusterUsageIsSum(clusters: seq<MiddlewareCluster>, config: GlobalConfig, routes: seq<QueueResult>)
    ensures forall i :: 0 <= i < |clusters| ==>
              clusters[i].id in ClusterUsage(clusters, config, routes)
              && ClusterUsage(clusters, config, routes)[clusters[i].id] == UsageOf(config, routes, clusters[i].id)
  {
    forall i | 0 <= i < |clusters|
      ensures clusters[i].id in ClusterUsage(clusters, config, routes)
      ensures ClusterUsage(clusters, config, routes)[clusters[i].id] == UsageOf(config, routes, clusters[i].id)
    {
      FoldIsSum(InitialUsage(clusters), config, routes, clusters[i].id);
    }
  }

  /** Source packets of the data objects named by a list of pairs. */
  function PairPackets(mdos: seq<MasterDataObject>, ps: seq<(nat, nat)>): int
    requires forall k :: 0 <= k < |mdos| ==> mdos[k].packetSize > 0.0
    requires forall p :: p in ps ==> p.0 < |mdos|
    decreases |ps|
  {
    if |ps| == 0 then 0
    else
      assert ps[0] in ps;
      PacketCount(mdos[ps[0].0]) + PairPackets(mdos, ps[1..])
  }

  lemma {:induction false} PairPacketsAppend(mdos: seq<MasterDataObject>, ps: seq<(nat, nat)>, qs: seq<(nat, nat)>)
    requires forall k :: 0 <= k < |mdos| ==> mdos[k].packetSize > 0.0
    requires forall p :: p in ps ==> p.0 < |mdos|
    requires forall p :: p in qs ==> p.0 < |mdos|
    ensures PairPackets(mdos, ps + qs) == PairPackets(mdos, ps) + PairPackets(mdos, qs)
    decreases |ps|
  {
    if |ps| == 0 {
      assert ps + qs == qs;
    } else {
      assert (ps + qs)[0] == ps[0];
      assert (ps + qs)[1..] == ps[1..] + qs;
      PairPacketsAppend(mdos, ps[1..], qs);
    }
  }

  /** Pairs that all name data object `i` carry its packets once each. */
  lemma {:induction false} PairPacketsOfRow(mdos: seq<MasterDataObject>, ps: seq<(nat, nat)>, i: nat)
    requires forall k :: 0 <= k < |mdos| ==> mdos[k].packetSize > 0.0
    requires i < |mdos|
    requires forall p :: p in ps ==> p.0 == i
    ensures PairPackets(mdos, ps) == PacketCount(mdos[i]) * |ps|
    decreases |ps|
  {
    if |ps| > 0 {
      assert ps[0] in ps;
      assert forall p :: p in ps[1..] ==> p in ps;
      PairPacketsOfRow(mdos, ps[1..], i);
      MulSucc(PacketCount(mdos[i]), |ps|, |ps[1..]|);
    }
  }

  lemma MulSucc(c: int, m: int, k: int)
    requires k == m - 1
    ensures c * m == c * k + c
  {
  }

  lemma RowRequestsArePairPackets(mdos: seq<MasterDataObject>, targets: seq<TargetSystem>, mappings: seq<Mapping>, i: nat)
    requires forall k :: 0 <= k < |mdos| ==> mdos[k].packetSize > 0.0
    requires i < |mdos|
    ensures PairPackets(mdos, ActiveRow(mdos, targets, mappings, i, 0)) == RowRequests(mdos, targets, mappings, i)
  {
    PairPacketsOfRow(mdos, ActiveRow(mdos, targets, mappings, i, 0), i);
  }

  /** The per-data-object request count is the packet count over the
      routed pairs. */
  lemma {:induction false} ApiRequestsArePairPackets(mdos: seq<MasterDataObject>, targets: seq<TargetSystem>, mappings: seq<Mapping>, i: nat)
    requires forall k :: 0 <= k < |mdos| ==> mdos[k].packetSize > 0.0
    requires i <= |mdos|
    ensures PairPackets(mdos, ActivePairsFrom(mdos, targets, mappings, i)) == TotalApiRequestsFrom(mdos, targets, mappings, i)
    decreases |mdos| - i
  {
    if i < |mdos| {
      var row := ActiveRow(mdos, targets, mappings, i, 0);
      var rest := ActivePairsFrom(mdos, targets, mappings, i + 1);
      assert ActivePairsFrom(mdos, targets, mappings, i) == row + rest;
      PairPacketsAppend(mdos, row, rest);
      RowRequestsArePairPackets(mdos, targets, mappings, i);
      ApiRequestsArePairPackets(mdos, targets, mappings, i + 1);
    }
  }

  /** Each route reports the packets of its data object. */
  lemma {:induction false} RoutePacketsArePairPackets(mdos: seq<MasterDataObject>, targets: seq<TargetSystem>, config: GlobalConfig, ps: seq<(nat, nat)>)
    requires ValidInputs(mdos, targets, config)
    requires forall p :: p in ps ==> p.0 < |mdos| && p.1 < |targets|
    ensures SumPackets(RoutesOf(mdos, targets, config, ps)) == PairPackets(mdos, ps)
    decreases |ps|
  {
    var rs := RoutesOf(mdos, targets, config, ps);
    if |ps| > 0 {
      assert ps[0] in ps;
      RoutePackets(mdos[ps[0].0], targets[ps[0].1], config);
      assert rs[1..] == RoutesOf(mdos, targets, config, ps[1..]);
      RoutePacketsArePairPackets(mdos, targets, config, ps[1..]);
    }
  }

  /** The source-request total counted per data object equals the packets
      summed over the reported routes: split sub-calls are not counted. */
  lemma ApiRequestsArePacketsOfRoutes(mdos: seq<MasterDataObject>, targets: seq<TargetSystem>, mappings: seq<Mapping>, config: GlobalConfig)
    requires ValidInputs(mdos, targets, config)
    ensures SumPackets(RoutesOf(mdos, targets, config, ActivePairs(mdos, targets, mappings)))
            == TotalApiRequestsFrom(mdos, targets, mappings, 0)
  {
    ApiRequestsArePairPackets(mdos, targets, mappings, 0);
    RoutePacketsArePairPackets(mdos, targets, config, ActivePairs(mdos, targets, mappings));
  }

  /** The whole computation. */
  function CalculateSimulation(
    mdos: seq<MasterDataObject>, targets: seq<TargetSystem>, mappings: seq<Mapping>,
    config: GlobalConfig, clusters: seq<MiddlewareCluster>): (r: SimulationResult)
    requires ValidInputs(mdos, targets, config)
    // the aggregates: sums and maxima over the reported routes
    ensures r.totalApiRequests == SumPackets(r.queues)
    ensures r.maxApiLoadRPS == SumEffectiveRPS(r.queues)
    ensures r.requiredNetworkThroughputMBPS == ToMB(r.maxApiLoadRPS, MaxPacketPayloadKB(mdos))
    ensures r.totalStorageRequiredMB == SumStorageMB(r.queues)
    ensures r.overallCompletionTimeSeconds == MaxCompletionSeconds(r.queues)
    // one health entry per configured cluster, from the routes that name it
    ensures |r.clusterHealth| == |clusters|
    ensures forall i :: 0 <= i < |clusters| ==>
              r.clusterHealth[i] == HealthOf(clusters[i], UsageOf(config, r.queues, clusters[i].id))
    // one route per routed pair, in visiting order
    ensures r.queues == RoutesOf(mdos, targets, config, ActivePairs(mdos, targets, mappings))
  {
    var pairs := ActivePairs(mdos, targets, mappings);
    var routes := RoutesOf(mdos, targets, config, pairs);
    var usage := ClusterUsage(clusters, config, routes);
    ClusterUsageIsSum(clusters, config, routes);
    ApiRequestsArePacketsOfRoutes(mdos, targets, mappings, config);
    var load := SumEffectiveRPS(routes);
    SimulationResult(
      queues := routes,
      clusterHealth := HealthReport(clusters, usage),
      totalApiRequests := TotalApiRequestsFrom(mdos, targets, mappings, 0),
      maxApiLoadRPS := load,
      requiredNetworkThroughputMBPS := ToMB(load, MaxPacketPayloadKB(mdos)),
      totalStorageRequiredMB := SumStorageMB(routes),
      overallCompletionTimeSeconds := MaxCompletionSeconds(routes))
  }
}

=== FILE: types.dfy ===
/** Input and output records of the capacity-estimation engine.
    Every numeric field of the original is a floating-point `number`; here it
    is an exact `real`. Counts the engine computes itself (packets, split
    factors, queue counts, rounded thread counts) are integers. */
module Types {

  /** An optional field of the original record (`field?: T`). */
  datatype Option<+T> = None | Some(value: T)

  /** One category of data to replicate. */
  datatype MasterDataObject = MasterDataObject(
    id: string,
    name: string,
    volume: real,                 // total number of records
    packetSize: real,             // records per source request
    payloadSizePerRecordKB: real  // kilobytes per record
  )

  /** A middleware runtime with finite shared capacity. */
  datatype MiddlewareCluster = MiddlewareCluster(
    id: string,
    name: string,
    maxThreads: real,
    maxQueues: real,
    maxQueueCapacityMB: real      // storage for the whole cluster
  )

  /** Carried as data only: no formula branches on it. */
  datatype ReplicationType = Realtime | Scheduled

  datatype TargetSystem = TargetSystem(
    id: string,
    middlewareClusterId: string,
    name: string,
    apiRateLimitRPM: real,
    targetPacketSize: Option<real>,          // records per target call
    replicationType: ReplicationType,
    scheduleIntervalMinutes: Option<real>,   // never read by the engine
    middlewareRateLimitEnabled: Option<bool>,
    middlewareIngressRPM: Option<real>
  )

  datatype IntegrationPattern = Async | Sync

  datatype GlobalConfig = GlobalConfig(
    avgMiddlewareResponseTimeMs: real,
    mdgConcurrency: real,          // parallel source channels per target interface
    integrationPattern: IntegrationPattern
  )

  datatype Mapping = Mapping(mdoId: string, targetId: string, active: bool)

  /** Figures for one active (data object, target) route. */
  datatype QueueResult = QueueResult(
    targetName: string,
    targetId: string,
    middlewareClusterId: string,
    mdoName: string,
    totalRecords: real,
    totalPackets: int,
    payloadPerPacketKB: real,
    totalDataMB: real,
    splitFactor: int,
    effectiveTargetPacketSize: real,
    inboundThroughputRecordsPerSec: real,
    theoreticalInboundRPS: real,
    middlewareLimitRPS: real,
    isThrottled: bool,
    usedThreads: real,
    isThreadBound: bool,
    outboundProcessingRateRecordsPerSec: real,
    completionTimeSeconds: real,
    maxQueueDepthPackets: int,
    maxQueueStorageMB: real,
    isStorageOverflow: bool
  )

  /** Aggregated usage of one cluster against its capacity. */
  datatype ClusterHealth = ClusterHealth(
    clusterId: string,
    clusterName: string,
    activeQueues: nat,
    maxQueues: real,
    usedThreads: int,
    maxThreads: real,
    totalStorageUsedMB: real,
    maxStorageMB: real,
    isQueueCountBreached: bool,
    isThreadCountBreached: bool,
    hasStorageWarning: bool
  )

  datatype SimulationResult = SimulationResult(
    queues: seq<QueueResult>,
    clusterHealth: seq<ClusterHealth>,
    totalApiRequests: int,
    maxApiLoadRPS: real,
    requiredNetworkThroughputMBPS: real,
    totalStorageRequiredMB: real,
    overallCompletionTimeSeconds: real
  )
}
